=== FILE: README.md ===
# window: a verified model of the terminal video player's core

`window` plays video in a terminal. It reads decoded RGB frames, samples every second pixel row, and paints each sampled pixel as a coloured glyph at a computed cursor position. A pixel is repainted only when it moved far enough in colour from the previous frame. A render loop paces the frames to the source rate and counts them for the on-screen clock. A key handler running beside the render loop quits, or seeks five seconds forwards or backwards.

This project models that core in Dafny and proves properties of the model. There is one module per concern:

| module | file | what it models |
|---|---|---|
| `Numeric` | numeric.dfy | `u8`/`u16` widths, the `as u16` truncation, saturating subtraction, and float-to-integer casts (round toward zero, `i64` saturation) |
| `Colour` | colour.dfy | `rgb_distance`, kept as an exact squared integer distance |
| `Glyphs` | glyphs.dfy | the five character modes: glyph tables, foreground and background colours |
| `Frames` | frames.dfy | frames as rows of RGB pixels, the sampled positions (even rows), and reading the previous frame |
| `Diff` | diff.dfy | which sampled pixels are repainted, in the renderer's loop order |
| `Render` | render.dfy | `Video::print_frame_to_terminal` (paint operations, placement, state update) and `Video::fps` |
| `FrameTimes` | frame_times.dfy | `calculate_fps` and the ten-entry timestamp window |
| `VideoUrl` | video_url.dfy | `VideoUrl::from_str` |
| `StepSize` | step_size.dfy | `step_size` |
| `TimeFormat` | time_format.dfy | `format_time`, with a parser used to state its round trip |
| `Playback` | playback.dfy | `handle_render` in src/main.rs: start-up, key handling, seeks, frame counting, pacing sleep, end of stream, as a sequence of events |

Modelling conventions:

- Time arithmetic that the source does in `f32`/`f64` is modelled with exact reals.
- Casts back to integers are written out as rounding toward zero, with `u64` saturation below zero and `i64` saturation at both ends.
- Timestamps are natural numbers of nanoseconds.
- A Rust panic becomes an `Err` value that names its cause. Examples are:
  - reading the previous frame out of bounds;
  - a zero frame rate;
  - the `u16` underflow in `step_size`.
- The grey level, the terminal width and the clock readings are parameters.

Behaviour of the code worth knowing:

- The offset a backward seek sends to the decoder, `t * 1000 - 5000` ms, is not clamped at zero (src/main.rs:137-139). Below five seconds it lies in [−5000, 0] and equals −⌊(5000·fps − 1000·frames_seen)/fps⌋, because the `as i64` cast rounds toward zero. It is negative up to t = 4.999 s, and can be 0 just below five seconds (`Playback.BackwardMillis`, `Playback.BackwardMillisExamples`).
- src/main.rs does not drain frames already queued when a seek happens. The model has no such step.
- The renderer hardcodes a vertical stride of 2 (src/video.rs:139) and never calls `step_size`. `StepSize` is modelled on its own.
- The character modes are the five matched in src/video.rs:171-205.

## Model

| member | source | states |
|---|---|---|
| Numeric.AsU16 | src/video.rs:209-212 | `as u16` keeps the value below 65536, and otherwise drops a multiple of 65536 |
| Numeric.FloatToI64 | src/main.rs:124-126 | the `f32 as i64` cast rounds toward zero within range and saturates at the `i64` bounds: `i64::MIN` below, `i64::MAX` above |
| Numeric.FloatToU64 | src/main.rs:129 | the `f32 as u64` cast is 0 for non-positive input, otherwise the integer part (no upper saturation, see Left out) |
| Numeric.SaturatingSub | src/main.rs:178 | the difference when it is not negative, and 0 otherwise |
| Numeric.RealDivFloor | src/main.rs:122 | the floor of the exact quotient of two naturals is their integer quotient |
| Colour.SquaredDistance | src/utils/rgb_distance.rs:1-8 | the squared distance is at most 3·255² = 195075, is 0 exactly for equal colours, and is at least the square of each channel difference |
| Colour.DistanceSymmetric | src/utils/rgb_distance.rs:2-7 | the distance is symmetric; every pair reaches threshold 0, and a pair reaches threshold 1 exactly when the colours differ |
| Colour.ReachesIsEuclidean | src/video.rs:164 | for the exact square root `dist` of the squared distance, the integer gate `d ≥ c²` holds exactly when `dist ≥ c` |
| Colour.DistanceDominatesChannels | src/utils/rgb_distance.rs:2-7 | the Euclidean distance is at least the absolute difference of each channel |
| Glyphs.Style | src/video.rs:171-205 | the glyph is the mode's table entry for the grey level; Blocks, Dots and Unicode print in the pixel colour (Dots and Unicode on black), while Ascii and Numbers print grey on a pixel-coloured background |
| Glyphs.RankTables | src/video.rs:175-201 | the Ascii and Numbers bucket is 0 for grey ≤ 42, 1 up to 85, 2 up to 127, 3 up to 170, 4 up to 212, else 5; the Unicode bucket changes at 64, 128 and 192 |
| Glyphs.GlyphTableMonotone | src/video.rs:171-205 | a darker grey never gets a later glyph in the table; grey 0 gets the first glyph ("@", "8", full block) and grey 255 the last ("-", "0", light shade) |
| Glyphs.GlyphSwitchesAtBoundaries | src/video.rs:175-201 | the i-th bucket boundary lies in 1..255; the grey just below it selects table entry i and the boundary itself entry i + 1 |
| Glyphs.SolidModesIgnoreGrey | src/video.rs:172-173 | in Blocks and Dots mode the styled glyph does not depend on the grey level |
| Frames.CoversSampled | src/video.rs:159-160 | the computable check holds exactly when every sampled position of the new frame can be read in the previous frame |
| Frames.SameSizeCovers | src/video.rs:159-160 | a previous frame with the same dimensions covers every sampled position |
| Diff.ChangedCells | src/video.rs:152-167 | a position is repainted iff it is sampled (in bounds, even row) and needs an update; the list is strictly row-major, so it has no repeats |
| Diff.NoLastFrameRepaintsAll | src/video.rs:152-153 | with no previous frame all ceil(h/2)·w sampled positions are repainted |
| Diff.SameDecisionsSameCells | src/video.rs:159-167 | two repaint policies that agree at every sampled position repaint the same list |
| Diff.ZeroThresholdRepaintsAll | src/video.rs:159-167 | clear distance 0 over any covering previous frame repaints the same list as no previous frame |
| Diff.UnchangedFrameRepaintsNothing | src/video.rs:159-167 | a frame painted over itself with clear distance ≥ 1 repaints nothing |
| Render.XOffset | src/video.rs:141-148 | a narrower frame is centred: the two margins sum to the free columns and differ by at most one; a frame at least as wide as the terminal gets offset 0 |
| Render.PrintFrameToTerminal | src/video.rs:127-223 | the paint fails exactly when the previous frame cannot be read at a sampled position; on success the i-th operation paints the i-th repainted position, the previous frame becomes this frame, one timestamp is appended, and nothing else in the state changes |
| Render.Placement | src/video.rs:207-214 | a sampled pixel (x, y) is painted at column x + x_offset and row y/2 + 3, inside the centred band of the terminal |
| Render.PlacementInjective | src/video.rs:207-214 | two sampled pixels never share a terminal cell |
| Render.PaintOrder | src/video.rs:152-153 | the operations come in row-major cursor order, and no cell is painted twice |
| Render.FirstFrameRepaintsAll | src/video.rs:152-167 | with no previous frame there are exactly ceil(h/2)·w operations, including one for every sampled pixel |
| Render.RepaintIffDistant | src/video.rs:159-169 | with an equal-sized previous frame, a sampled pixel's cell is painted iff its squared distance to the old pixel is at least the clear distance squared |
| Render.OpAtCellIffListed | src/video.rs:207-214 | an operation lands on a sampled pixel's cell exactly when that pixel is in the painted list |
| Render.IdenticalFrameEmitsNothing | src/video.rs:159-167 | repainting the previous frame with clear distance ≥ 1 emits no operations |
| Render.ZeroDistancePaintsAsFirstFrame | src/video.rs:159-167 | clear distance 0 emits the same operations as a first frame |
| Render.Fps | src/video.rs:225-244 | `fps()` keeps the ten most recent timestamps and reports 0 for fewer than five; otherwise it reports infinity when no time elapsed, and in every other case a rate whose product with the elapsed seconds is the count |
| Render.RateOf | src/video.rs:234-243 | the rate is never negative, and it is 0, infinite or count/elapsed under the same conditions as `fps()` |
| Render.PaintThenFps | src/video.rs:220-221 | after a paint and `fps()`, at most ten timestamps remain: the most recent ones in order, ending with the new paint's |
| FrameTimes.Elapsed | src/utils/calculate_fps.rs:12 | `duration_since` gives end − start when end is not earlier, and 0 otherwise |
| FrameTimes.KeepRecent | src/video.rs:228-232 | the window keeps min(len, n) timestamps, and they are the last ones, in order |
| FrameTimes.CalculateFps | src/utils/calculate_fps.rs:3-19 | the rate is never negative, and it is positive exactly when there are at least ten timestamps and the last is later than the first |
| FrameTimes.CalculateFpsEndpoints | src/utils/calculate_fps.rs:10-18 | the rate depends only on the count and the first and last timestamps |
| FrameTimes.CalculateFpsRatio | src/utils/calculate_fps.rs:18 | rate × elapsed seconds = count |
| FrameTimes.KeepRecentAfterPush | src/main.rs:187-193 | after a push and truncation at most n timestamps remain, the newest last; below n nothing is dropped |
| VideoUrl.FromStr | src/video.rs:43-53 | classification never fails and keeps the input unchanged; YoutubeUrl iff the input starts with "http" and contains "youtube.com" or "youtu.be", DirectUrl iff "http" without either, File iff not starting with "http" |
| VideoUrl.ContainsIffOccurs | src/video.rs:45 | the substring scan holds exactly when the needle occurs at some index |
| VideoUrl.ClassificationExamples | src/video.rs:44-52 | "https://youtu.be/x" is a YouTube URL and "clips/youtu.be.mp4" is a file |
| StepSize.StepSize | src/utils/step_size.rs:6 | fails exactly for height ≤ 2: underflow below 2, division by zero at 2; otherwise the stride is at least 2 |
| StepSize.ClampRatio | src/utils/step_size.rs:6 | the stride is ratio − 2 when the ratio is at least 4, and 2 when it is at most 4 |
| StepSize.WideTerminal | src/utils/step_size.rs:6 | when w/(h−2) ≥ 4 the stride is w/(h−2) − 2 |
| StepSize.NarrowTerminal | src/utils/step_size.rs:6 | when w/(h−2) ≤ 4 the stride is 2 |
| StepSize.MonotoneInWidth | src/utils/step_size.rs:6 | at a fixed height, a wider terminal never gets a smaller stride |
| TimeFormat.FormatTime | src/utils/format_time.rs:2 | the text has at least 8 characters, and exactly 8 iff t < 100 hours |
| TimeFormat.FormatShape | src/utils/format_time.rs:2 | every character is a digit or ':'; there are exactly three fields, with at least two hour digits and exactly two minute and two second digits |
| TimeFormat.FormatTimeRoundTrip | src/utils/format_time.rs:2 | parsing the text gives back h = t/3600, m = (t%3600)/60 and s = t%60, with m, s < 60 and h·3600 + m·60 + s = t |
| TimeFormat.DecimalRoundTrip | src/utils/format_time.rs:2 | a decimal rendering reads back as the same number |
| TimeFormat.PaddedValue | src/utils/format_time.rs:2 | zero padding to width two keeps the value |
| Playback.StartSession | src/main.rs:94-97 | start-up fails exactly when fps = 0; otherwise the frame time is ⌊1,000,000/fps⌋ µs (ft·fps ≤ 10⁶ < (ft+1)·fps), no frame has been seen, and no timestamp is recorded |
| Playback.SeekForward | src/main.rs:120-131 | `l` moves frames_seen to (t+5)·fps = frames_seen + 5·fps and sends ⌊1000·frames_seen/fps⌋ + 5000 ms, saturated at the top of `i64` |
| Playback.SeekBackward | src/main.rs:133-144 | `k` moves frames_seen to max(0, t−5)·fps, which is 0 below five seconds; the sent offset is ⌊1000·frames_seen/fps⌋ − 5000 from five seconds on (saturated at the top of `i64`), and −⌊(5000·fps − 1000·frames_seen)/fps⌋ (in [−5000, 0]) below |
| Playback.ForwardFrames | src/main.rs:129 | `((t + 5) * fps) as u64` is exactly frames_seen + 5·fps |
| Playback.ForwardMillis | src/main.rs:124-126 | `(t * 1000 + 5000) as i64` is ⌊1000·frames_seen/fps⌋ + 5000 while that fits `i64`, and `i64::MAX` beyond |
| Playback.BackwardFrames | src/main.rs:141-142 | `((t - 5).max(0) * fps) as u64` is frames_seen − 5·fps, saturating at 0 |
| Playback.BackwardMillis | src/main.rs:137-139 | the backward offset is not clamped: from five seconds on it is ⌊1000·frames_seen/fps⌋ − 5000 while that fits `i64`, and `i64::MAX` beyond; below, it is −⌊(5000·fps − 1000·frames_seen)/fps⌋, in [−5000, 0], and negative up to t = 4.999 s |
| Playback.BackwardMillisExamples | src/main.rs:137-139 | 3 s at 30 fps sends −2000 ms, 4.9995 s at 2000 fps sends 0, and frame 0 sends −5000 ms |
| Playback.ForwardThenBack | src/main.rs:120-144 | a forward seek followed by a backward seek returns to the same frame |
| Playback.BackFromStartSendsNegative | src/main.rs:137-142 | seeking back from frame 0 stays at frame 0 and sends −5000 ms |
| Playback.HandleInput | src/main.rs:107-154 | the outcome is Quit iff the key is `q`, or `c` with exactly Control; when not live, `l` gives the forward seek and `k` the backward seek, each with its offset; an offset is sent only then; otherwise, and always when live, nothing changes |
| Playback.QuitFromAnyState | src/main.rs:112-117 | `q` with any modifiers, and Control-`c`, end the session from any state, live or not |
| Playback.PlainCIsNotQuit | src/main.rs:113-114 | `c` without modifiers, or with Control plus Shift, does not quit |
| Playback.SeekKeysInSession | src/main.rs:119-144 | in a seekable session `l` moves frames_seen to frames_seen + 5·fps and `k` to max(0, frames_seen − 5·fps), each appending exactly its own offset to those sent |
| Playback.PacingSleep | src/main.rs:177-183 | with the cap removed there is no sleep; otherwise the sleep and the paint time add up to the target frame time, or the sleep is 0 once the paint overran it |
| Playback.PacingExample | src/main.rs:95 | at 30 fps a 10 ms paint is followed by a 23.333 ms sleep |
| Playback.PushTime | src/main.rs:187-193 | the window after a push keeps min(len+1, 10) timestamps: the newest last, preceded by the most recent of the old ones |
| Playback.OnFrame | src/main.rs:156-218 | a received frame raises frames_seen by exactly one, sleeps the pacing time, computes the rate over the window including the new timestamp before truncating it, and ends the session iff the stream is Fixed(d) with d − t < 0.05 |
| Playback.StreamFinishedInFrames | src/main.rs:214-215 | the end test d − n/fps < 0.05 holds exactly when 20·(d·fps − n) < fps |
| Playback.EndOfStreamExample | src/main.rs:214-217 | a 10 s stream at 25 fps ends at frame 249 (t = 9.96 s) and not at frame 248 |
| Playback.LiveDurationNeverEnds | src/main.rs:214 | a frame of a Live stream never ends the session |
| Playback.Step | src/main.rs:107-221 | a closed channel ends the session; a quit key ends it; any other key leaves the session with the key handler's new position and with its offset, if any, appended to those sent; a frame ends the session (with reason end of stream) iff the time test fires after counting that frame, and otherwise keeps it running and leaves exactly the session the render loop's frame handling (`Playback.OnFrame`) produces: one more frame, the ten-entry timestamp window, unchanged pacing settings, and nothing sent |
| Playback.LiveRunCountsFrames | src/main.rs:165-169 | in a live session frames_seen after any sequence of events is its start value plus the number of frames received, and no seek is ever sent |

## Left out

- Decoding and fetching (`Video::fetch_video`, src/video.rs:57-125) are left out: they are FFmpeg decoding, network access and channels. Frames arrive as parameters of the events.
- Probing, resolving and configuring are left out: src/utils/ffprobe.rs, src/utils/youtube.rs, src/utils/size.rs and src/utils/args.rs are foreign calls, subprocesses, terminal queries and command-line parsing.
- src/utils/get_grey.rs is left out because it is float arithmetic. The grey level is a parameter function from colour to 0..255.
- The escape sequences produced by `colored` and `cursor::Goto` are left out. A paint operation is an abstract record of column, row, glyph and colours.
- The terminal clear on resize (src/main.rs:157-163) is left out because it only writes to the terminal.
- `write_header`, `write_frame` and `write_footer` are left out: src/main.rs calls them on `Video`, but the `impl Video` in src/video.rs does not define them.
- `end()`, Ctrl-C signal handling, raw mode, the lock around frames_seen and the spawned key task are left out (src/main.rs:70-86, 103-107). Key presses and frames become one sequence of events.
- Playback.Step: a received frame is one atomic step. In the source it takes the frames_seen lock twice, to increment (src/main.rs:165-169) and later to read for the end test (src/main.rs:195-199), with the paint and the pacing sleep in between. A seek key landing in that gap is not expressible. In the source, the end test then reads the count after the seek. Here it always reads the count right after the increment.
- Sends on the seek channel always succeed in the model. The source's `unwrap` on a closed channel is not modelled.
- Float rounding is not modelled. Times, rates and the colour distance use exact reals and integers. The distance gate is exact in `f32`, because the squared sum is at most 195075 < 2²⁴ and an integer threshold compares the same against it.
- Numeric.FloatToU64: the `as u64` cast's saturation at `u64::MAX` is not modelled. Above that bound the model returns the integer part itself.
- Playback.ForwardFrames: the upper `u64` saturation of the `as u64` cast is not modelled, because frames_seen would first need more than 2⁶⁴ frames. frames_seen itself is unbounded.
- Render.Fps: it does not restate that the rate is never negative. `Render.RateOf` states it.
- StepSize.StepSize: below height 2, only the debug-build panic is modelled, not the release-build wrap-around of the `u16` subtraction.
- Render.PrintFrameToTerminal: frame dimensions are naturals. The `u32` casts of the width and height (src/video.rs:132-133) are not modelled, and neither is the `u32` overflow of `x + x_offset`. `Render.Addressable` states when the `u16` cursor casts do not truncate.
- The key handler's commented-out fullscreen toggle (src/main.rs:147-149) is left out, because it is not code.

=== FILE: colour.dfy ===
/** Colours and the distance between two colours (src/utils/rgb_distance.rs).

    The source returns the Euclidean distance as an `f32` square root and
    its only caller compares it with `>=` against a `u16` threshold. The
    model keeps the squared distance as an exact integer and performs the
    comparison on squares; lemma `ReachesIsEuclidean` shows the two agree. */
module Colour {
  import opened Numeric

  /** One RGB pixel. */
  datatype Rgb = Rgb(r: U8, g: U8, b: U8)

  /** The largest squared distance, between black and white: 3 * 255^2. */
  const MaxSquaredDistance: nat := 195075

  /** x^2. The two branches compute the same value; each is a product of
      two naturals, so the result is a `nat` without nonlinear reasoning. */
  function Square(x: int): (s: nat)
  {
    if x >= 0 then x * x else (-x) * (-x)
  }

  /** dr^2 + dg^2 + db^2. */
  function SquaredDistance(a: Rgb, b: Rgb): (d: nat)
    ensures d <= MaxSquaredDistance
    ensures d == 0 <==> a == b
    ensures d >= Square(a.r - b.r) && d >= Square(a.g - b.g) && d >= Square(a.b - b.b)
  {
    ChannelSquareBound(a.r - b.r);
    ChannelSquareBound(a.g - b.g);
    ChannelSquareBound(a.b - b.b);
    Square(a.r - b.r) + Square(a.g - b.g) + Square(a.b - b.b)
  }

  function Abs(x: int): (a: nat)
  {
    if x >= 0 then x else -x
  }

  lemma ChannelSquareBound(x: int)
    requires -255 <= x <= 255
    ensures Square(x) <= 65025
    ensures Square(x) == 0 <==> x == 0
  {
    var y := Abs(x);
    assert Square(x) == y * y;
    MulLeq(y, 255, y);
    MulLeq(y, 255, 255);
    if y > 0 {
      MulLeq(1, y, y);
    }
  }

  lemma MulLeq(a: nat, b: nat, c: nat)
    requires a <= b
    ensures a * c <= b * c
  {
  }

  /** The renderer's repaint gate: the distance between `a` and `b` is at
      least `threshold`. */
  predicate Reaches(a: Rgb, b: Rgb, threshold: U16)
  {
    SquaredDistance(a, b) >= threshold * threshold
  }

  /** The distance does not depend on the order of its arguments. */
  lemma DistanceSymmetric(a: Rgb, b: Rgb)
    ensures SquaredDistance(a, b) == SquaredDistance(b, a)
    ensures Reaches(a, b, 0) && (Reaches(a, b, 1) <==> a != b)
  {
    assert Square(a.r - b.r) == Square(b.r - a.r);
    assert Square(a.g - b.g) == Square(b.g - a.g);
    assert Square(a.b - b.b) == Square(b.b - a.b);
  }

  /** For any non-negative real `dist` whose square is the squared
      distance (the exact square root), comparing `dist >= threshold` is
      the same as comparing the squares: the gate loses nothing by
      staying in integers. */
  lemma ReachesIsEuclidean(a: Rgb, b: Rgb, threshold: U16, dist: real)
    requires dist >= 0.0 && dist * dist == SquaredDistance(a, b) as real
    ensures Reaches(a, b, threshold) <==> dist >= threshold as real
  {
    var c := threshold as real;
    assert (threshold * threshold) as real == c * c;
    if dist >= c {
      SquareMonotone(c, dist);
    } else {
      StrictSquare(dist, c);
    }
  }

  lemma SquareMonotone(x: real, y: real)
    requires 0.0 <= x <= y
    ensures x * x <= y * y
  {
    var xx, xy, yy := x * x, x * y, y * y;
    assert xx <= xy;
    assert xy <= yy;
  }

  /** The distance is at least the difference in any single channel. */
  lemma DistanceDominatesChannels(a: Rgb, b: Rgb, dist: real)
    requires dist >= 0.0 && dist * dist == SquaredDistance(a, b) as real
    ensures dist >= Abs(a.r - b.r) as real
    ensures dist >= Abs(a.g - b.g) as real
    ensures dist >= Abs(a.b - b.b) as real
  {
    var d := SquaredDistance(a, b);
    ChannelDominated(dist, d, a.r - b.r);
    ChannelDominated(dist, d, a.g - b.g);
    ChannelDominated(dist, d, a.b - b.b);
  }

  lemma ChannelDominated(dist: real, d: nat, x: int)
    requires dist >= 0.0 && dist * dist == d as real && Square(x) <= d
    ensures dist >= Abs(x) as real
  {
    var y := Abs(x) as real;
    assert y * y == Square(x) as real;
    RootDominates(dist, y);
  }

  lemma RootDominates(dist: real, y: real)
    requires dist >= 0.0 && y >= 0.0 && y * y <= dist * dist
    ensures dist >= y
  {
    if dist < y {
      StrictSquare(dist, y);
    }
  }

  lemma StrictSquare(x: real, y: real)
    requires 0.0 <= x < y
    ensures x * x < y * y
  {
    var xx, xy, yy := x * x, x * y, y * y;
    assert xx <= xy;
    assert xy < yy;
  }
}

=== FILE: diff.dfy ===
/** Which sampled pixels the renderer repaints (src/video.rs:152-167): all
    of them when there is no previous frame, otherwise those whose colour
    moved at least the clear distance away from the previous frame's pixel
    at the same position. The positions are listed in the order the
    renderer's two loops visit them: row by row, left to right. */
module Diff {
  import opened Numeric
  import opened Wrappers
  import opened Colour
  import opened Frames

  /** The repaint decision for one position. */
  predicate NeedsUpdate(f: Frame, last: Option<Frame>, threshold: U16, p: Pos)
    requires InBounds(f, p)
    requires last.Some? ==> InBounds(last.value, p)
  {
    match last
    case None => true
    case Some(l) => Reaches(Pixel(f, p), Pixel(l, p), threshold)
  }

  /** The previous frame, if any, can be read at every sampled position. */
  ghost predicate LastFits(f: Frame, last: Option<Frame>)
  {
    last.Some? ==> Covers(last.value, f)
  }

  /** `a` is visited before `b`: an earlier row, or the same row further left. */
  predicate Before(a: Pos, b: Pos)
  {
    a.y < b.y || (a.y == b.y && a.x < b.x)
  }

  /** Strictly in visiting order, hence without repetitions. */
  ghost predicate RowMajor(cells: seq<Pos>)
  {
    forall i, j :: 0 <= i < j < |cells| ==> Before(cells[i], cells[j])
  }

  /** The repainted positions of pixel row `y`, from column `x` on. */
  function RowChanges(f: Frame, last: Option<Frame>, threshold: U16, y: nat, x: nat): seq<Pos>
    requires y < f.height && y % Stride == 0 && LastFits(f, last)
    decreases f.width - x
  {
    if x >= f.width then []
    else
      (if NeedsUpdate(f, last, threshold, Pos(x, y)) then [Pos(x, y)] else [])
      + RowChanges(f, last, threshold, y, x + 1)
  }

  /** The repainted positions of the sampled rows from row `y` on. */
  function ChangesFrom(f: Frame, last: Option<Frame>, threshold: U16, y: nat): seq<Pos>
    requires y % Stride == 0 && LastFits(f, last)
    decreases f.height - y
  {
    if y >= f.height then []
    else RowChanges(f, last, threshold, y, 0) + ChangesFrom(f, last, threshold, y + Stride)
  }

  /** The positions the renderer repaints, in the order it paints them: a
      sampled position is listed iff it needs an update, and every position
      at most once, in row-major order. */
  function ChangedCells(f: Frame, last: Option<Frame>, threshold: U16): (cells: seq<Pos>)
    requires LastFits(f, last)
    ensures forall p :: p in cells <==> Sampled(f, p) && NeedsUpdate(f, last, threshold, p)
    ensures forall i :: 0 <= i < |cells| ==> InBounds(f, cells[i])
    ensures RowMajor(cells)
  {
    ChangesFromSpec(f, last, threshold, 0);
    ChangesFrom(f, last, threshold, 0)
  }

  lemma {:induction false} RowChangesSpec(f: Frame, last: Option<Frame>, threshold: U16, y: nat, x: nat)
    requires y < f.height && y % Stride == 0 && LastFits(f, last)
    ensures forall p :: p in RowChanges(f, last, threshold, y, x) <==>
      p.y == y && x <= p.x < f.width && NeedsUpdate(f, last, threshold, p)
    ensures RowMajor(RowChanges(f, last, threshold, y, x))
    decreases f.width - x
  {
    if x < f.width {
      RowChangesSpec(f, last, threshold, y, x + 1);
      var rest := RowChanges(f, last, threshold, y, x + 1);
      var head := if NeedsUpdate(f, last, threshold, Pos(x, y)) then [Pos(x, y)] else [];
      forall q | q in rest ensures Before(Pos(x, y), q) { }
      ConcatRowMajor(head, rest);
    }
  }

  lemma {:induction false} ChangesFromSpec(f: Frame, last: Option<Frame>, threshold: U16, y: nat)
    requires y % Stride == 0 && LastFits(f, last)
    ensures forall p :: p in ChangesFrom(f, last, threshold, y) <==>
      Sampled(f, p) && y <= p.y && NeedsUpdate(f, last, threshold, p)
    ensures RowMajor(ChangesFrom(f, last, threshold, y))
    decreases f.height - y
  {
    if y < f.height {
      RowChangesSpec(f, last, threshold, y, 0);
      ChangesFromSpec(f, last, threshold, y + Stride);
      var row := RowChanges(f, last, threshold, y, 0);
      var rest := ChangesFrom(f, last, threshold, y + Stride);
      forall p | Sampled(f, p) && y <= p.y && p.y != y
        ensures y + Stride <= p.y
      {
        assert p.y / Stride > y / Stride;
      }
      forall a, b | a in row && b in rest ensures Before(a, b) { }
      ConcatRowMajor(row, rest);
    }
  }

  lemma ConcatRowMajor(a: seq<Pos>, b: seq<Pos>)
    requires RowMajor(a) && RowMajor(b)
    requires forall p, q :: p in a && q in b ==> Before(p, q)
    ensures RowMajor(a + b)
  {
    forall i, j | 0 <= i < j < |a + b| ensures Before((a + b)[i], (a + b)[j]) {
      if j < |a| {
      } else if i >= |a| {
        assert (a + b)[i] == b[i - |a|] && (a + b)[j] == b[j - |a|];
      } else {
        assert (a + b)[i] in a && (a + b)[j] in b;
      }
    }
  }

  /** Without a previous frame a row from column `x` on is repainted whole. */
  lemma {:induction false} FullRowCount(f: Frame, threshold: U16, y: nat, x: nat)
    requires y < f.height && y % Stride == 0 && x <= f.width
    ensures |RowChanges(f, None, threshold, y, x)| == f.width - x
    decreases f.width - x
  {
    if x < f.width {
      FullRowCount(f, threshold, y, x + 1);
    }
  }

  lemma {:induction false} FullFrameCount(f: Frame, threshold: U16, y: nat)
    requires y % Stride == 0 && y <= f.height + 1
    ensures |ChangesFrom(f, None, threshold, y)| == (f.height + 1 - y) / Stride * f.width
    decreases f.height - y
  {
    if y < f.height {
      FullRowCount(f, threshold, y, 0);
      FullFrameCount(f, threshold, y + Stride);
      var q := (f.height + 1 - (y + Stride)) / Stride;
      assert (f.height + 1 - y) / Stride == q + 1;
      assert (q + 1) * f.width == f.width + q * f.width;
    }
  }

  /** With no previous frame every sampled pixel is repainted: one paint per
      column of each even row, ceil(height / 2) * width in all. */
  lemma NoLastFrameRepaintsAll(f: Frame, threshold: U16)
    ensures |ChangedCells(f, None, threshold)| == (f.height + 1) / 2 * f.width
    ensures forall p :: Sampled(f, p) ==> p in ChangedCells(f, None, threshold)
  {
    FullFrameCount(f, threshold, 0);
  }

  /** Two repaint policies that agree at every sampled position repaint the
      same positions. */
  lemma SameDecisionsSameCells(f: Frame, a: Option<Frame>, ta: U16, b: Option<Frame>, tb: U16)
    requires LastFits(f, a) && LastFits(f, b)
    requires forall p :: Sampled(f, p) ==> NeedsUpdate(f, a, ta, p) == NeedsUpdate(f, b, tb, p)
    ensures ChangedCells(f, a, ta) == ChangedCells(f, b, tb)
  {
    SameDecisionsFrom(f, a, ta, b, tb, 0);
  }

  lemma {:induction false} SameDecisionsFrom(f: Frame, a: Option<Frame>, ta: U16, b: Option<Frame>, tb: U16, y: nat)
    requires y % Stride == 0 && LastFits(f, a) && LastFits(f, b)
    requires forall p :: Sampled(f, p) ==> NeedsUpdate(f, a, ta, p) == NeedsUpdate(f, b, tb, p)
    ensures ChangesFrom(f, a, ta, y) == ChangesFrom(f, b, tb, y)
    decreases f.height - y
  {
    if y < f.height {
      assert (y + Stride) % Stride == 0;
      SameDecisionsRow(f, a, ta, b, tb, y, 0);
      SameDecisionsFrom(f, a, ta, b, tb, y + Stride);
    }
  }

  lemma {:induction false} SameDecisionsRow(f: Frame, a: Option<Frame>, ta: U16, b: Option<Frame>, tb: U16, y: nat, x: nat)
    requires y < f.height && y % Stride == 0 && LastFits(f, a) && LastFits(f, b)
    requires forall p :: Sampled(f, p) ==> NeedsUpdate(f, a, ta, p) == NeedsUpdate(f, b, tb, p)
    ensures RowChanges(f, a, ta, y, x) == RowChanges(f, b, tb, y, x)
    decreases f.width - x
  {
    if x < f.width {
      assert Sampled(f, Pos(x, y));
      SameDecisionsRow(f, a, ta, b, tb, y, x + 1);
    }
  }

  /** A clear distance of 0 repaints every sampled pixel even when a
      previous frame exists: the same positions as a first frame. */
  lemma ZeroThresholdRepaintsAll(f: Frame, last: Frame, threshold: U16)
    requires Covers(last, f)
    ensures ChangedCells(f, Some(last), 0) == ChangedCells(f, None, threshold)
  {
    SameDecisionsSameCells(f, Some(last), 0, None, threshold);
  }

  /** Repainting a frame over itself with a clear distance of at least 1
      repaints nothing. */
  lemma UnchangedFrameRepaintsNothing(f: Frame, threshold: U16)
    requires threshold >= 1
    ensures ChangedCells(f, Some(f), threshold) == []
  {
    forall p | Sampled(f, p) ensures !NeedsUpdate(f, Some(f), threshold, p) {
      DistanceSymmetric(Pixel(f, p), Pixel(f, p));
    }
    NoDecisionsFrom(f, Some(f), threshold, 0);
  }

  lemma {:induction false} NoDecisionsFrom(f: Frame, last: Option<Frame>, threshold: U16, y: nat)
    requires y % Stride == 0 && LastFits(f, last)
    requires forall p :: Sampled(f, p) ==> !NeedsUpdate(f, last, threshold, p)
    ensures ChangesFrom(f, last, threshold, y) == []
    decreases f.height - y
  {
    if y < f.height {
      NoDecisionsRow(f, last, threshold, y, 0);
      NoDecisionsFrom(f, last, threshold, y + Stride);
    }
  }

  lemma {:induction false} NoDecisionsRow(f: Frame, last: Option<Frame>, threshold: U16, y: nat, x: nat)
    requires y < f.height && y % Stride == 0 && LastFits(f, last)
    requires forall p :: Sampled(f, p) ==> !NeedsUpdate(f, last, threshold, p)
    ensures RowChanges(f, last, threshold, y, x) == []
    decreases f.width - x
  {
    if x < f.width {
      assert Sampled(f, Pos(x, y));
      NoDecisionsRow(f, last, threshold, y, x + 1);
    }
  }
}

=== FILE: frame_times.dfy ===
/** Paint-completion timestamps and the frame rate observed from them
    (src/utils/calculate_fps.rs, and the ten-entry windows kept at
    src/main.rs:187-193 and src/video.rs:225-244).

    A timestamp is a monotonic clock reading in nanoseconds, the resolution
    of the source's `Instant` differences. Rates are exact reals. */
module FrameTimes {

  const NanosPerSecond: nat := 1_000_000_000

  /** The number of timestamps both windows keep. */
  const Window: nat := 10

  /** `end.duration_since(start)`, which saturates at zero when `end` is
      the earlier reading. */
  function Elapsed(start: nat, end: nat): (d: nat)
    ensures end >= start ==> start + d == end
    ensures end <= start ==> d == 0
  {
    if end >= start then end - start else 0
  }

  /** The `n` most recent timestamps: `times[len - n..]` when there are more
      than `n`, otherwise all of them. */
  function KeepRecent(times: seq<nat>, n: nat): (kept: seq<nat>)
    ensures |kept| == if |times| > n then n else |times|
    ensures kept == times[|times| - |kept|..]
  {
    if |times| > n then times[|times| - n..] else times
  }

  /** `calculate_fps`: 0 for fewer than ten timestamps or no elapsed time,
      otherwise the count divided by the seconds from first to last. */
  function CalculateFps(times: seq<nat>): (fps: real)
    ensures fps >= 0.0
    ensures fps > 0.0 <==> |times| >= Window && times[|times| - 1] > times[0]
  {
    if |times| < Window then 0.0
    else
      var elapsed := Elapsed(times[0], times[|times| - 1]);
      if elapsed == 0 then 0.0
      else (|times| * NanosPerSecond) as real / elapsed as real
  }

  /** The observed rate depends only on how many timestamps there are and
      on the first and the last of them. */
  lemma CalculateFpsEndpoints(a: seq<nat>, b: seq<nat>)
    requires |a| == |b| && |a| > 0
    requires a[0] == b[0] && a[|a| - 1] == b[|b| - 1]
    ensures CalculateFps(a) == CalculateFps(b)
  {
  }

  /** The rate times the elapsed seconds is the number of timestamps. */
  lemma CalculateFpsRatio(times: seq<nat>)
    requires |times| >= Window && times[|times| - 1] > times[0]
    ensures CalculateFps(times) * (times[|times| - 1] - times[0]) as real
            == (|times| * NanosPerSecond) as real
  {
    var e := (times[|times| - 1] - times[0]) as real;
    var n := (|times| * NanosPerSecond) as real;
    assert CalculateFps(times) == n / e;
    assert n / e * e == n;
  }

  /** Keeping the recent timestamps of a window that has just grown by one
      leaves at most `n` of them, ending with the newest. */
  lemma KeepRecentAfterPush(times: seq<nat>, now: nat, n: nat)
    requires n > 0
    ensures |KeepRecent(times + [now], n)| <= n
    ensures KeepRecent(times + [now], n)[|KeepRecent(times + [now], n)| - 1] == now
    ensures |times| < n ==> KeepRecent(times + [now], n) == times + [now]
  {
  }
}

=== FILE: frames.dfy ===
/** Decoded frames and the pixels the renderer samples from them
    (src/video.rs:127-153). */
module Frames {
  import opened Colour

  /** A decoded frame: `height` rows of `width` RGB pixels, row-major. */
  datatype RawFrame = RawFrame(width: nat, height: nat, rows: seq<seq<Rgb>>)

  predicate WellShaped(f: RawFrame)
  {
    |f.rows| == f.height && forall y :: 0 <= y < f.height ==> |f.rows[y]| == f.width
  }

  /** A frame whose rows all have the frame's width, as the decoder's
      `(height, width, 3)` array guarantees. */
  type Frame = f: RawFrame | WellShaped(f) witness RawFrame(0, 0, [])

  /** A pixel position: column `x`, pixel row `y`. */
  datatype Pos = Pos(x: nat, y: nat)

  /** The renderer walks every second pixel row, starting at row 0. */
  const Stride: nat := 2

  predicate InBounds(f: Frame, p: Pos)
  {
    p.x < f.width && p.y < f.height
  }

  /** The positions the renderer visits: every column of every even row. */
  predicate Sampled(f: Frame, p: Pos)
  {
    InBounds(f, p) && p.y % Stride == 0
  }

  function Pixel(f: Frame, p: Pos): Rgb
    requires InBounds(f, p)
  {
    f.rows[p.y][p.x]
  }

  /** `last` holds every position the renderer samples in `f`, so reading
      the previous pixel never goes out of bounds. */
  ghost predicate Covers(last: Frame, f: Frame)
  {
    forall p :: Sampled(f, p) ==> InBounds(last, p)
  }

  /** The executable form of `Covers`: either nothing is sampled, or `last`
      is at least as wide as `f` and reaches past its last sampled row. */
  function CoversSampled(last: Frame, f: Frame): (b: bool)
    ensures b <==> Covers(last, f)
  {
    CoversSampledIsCovers(last, f);
    f.width == 0 || f.height == 0
    || (f.width <= last.width && (f.height - 1) / Stride * Stride < last.height)
  }

  lemma CoversSampledIsCovers(last: Frame, f: Frame)
    ensures (f.width == 0 || f.height == 0
             || (f.width <= last.width && (f.height - 1) / Stride * Stride < last.height))
            <==> Covers(last, f)
  {
    if f.width > 0 && f.height > 0 {
      var top := (f.height - 1) / Stride * Stride;
      if f.width <= last.width && top < last.height {
        forall p | Sampled(f, p) ensures InBounds(last, p) {
          assert p.y / Stride <= (f.height - 1) / Stride;
        }
      } else {
        var corner := Pos(f.width - 1, top);
        assert Sampled(f, corner);
        if f.width > last.width {
          var p := Pos(f.width - 1, 0);
          assert Sampled(f, p) && !InBounds(last, p);
        }
      }
    }
  }

  /** Two frames of the same size cover each other. */
  lemma SameSizeCovers(last: Frame, f: Frame)
    requires last.width == f.width && last.height == f.height
    ensures CoversSampled(last, f)
  {
  }
}

=== FILE: glyphs.dfy ===
/** The glyph and colours printed for one pixel (src/video.rs:170-205).

    `Style` is the renderer's match on the character mode, written as the
    source writes it: a cascade of grey-level ranges per mode. `Ramp`,
    `Boundaries` and `Rank` are an independent description of the same
    tables: each density mode has an ordered ramp of glyphs and the grey
    levels at which the next glyph starts; the glyph for a grey level is the
    ramp entry whose index counts the boundaries at or below it. */
module Glyphs {
  import opened Numeric
  import opened Colour

  /** The character modes the renderer matches on. */
  datatype CharacterMode = Blocks | Dots | Ascii | Numbers | Unicode

  /** The background a painted cell gets: none set, the terminal's named
      black, or a 24-bit colour. */
  datatype Background = DefaultBackground | Black | TrueColour(colour: Rgb)

  /** A glyph with its foreground and background. */
  datatype Styled = Styled(glyph: string, fg: Rgb, bg: Background)

  /** The fixed grey foreground of the density-ramp modes. */
  const Grey: Rgb := Rgb(128, 128, 128)

  const FullBlock: string := "\U{2588}"
  const DarkShade: string := "\U{2593}"
  const MediumShade: string := "\U{2592}"
  const LightShade: string := "\U{2591}"
  const Bullet: string := "\U{2022}"

  /** The glyph and colours for a pixel of colour `c` whose grey level is
      `grey`. */
  function Style(mode: CharacterMode, c: Rgb, grey: U8): (s: Styled)
    ensures s.glyph == Ramp(mode)[GlyphIndex(mode, grey)]
    ensures s.bg == DefaultBackground <==> mode == Blocks
    ensures s.bg == Black <==> mode in {Dots, Unicode}
    ensures s.bg.TrueColour? <==> mode in {Ascii, Numbers}
    ensures s.bg.TrueColour? ==> s.bg.colour == c && s.fg == Grey
    ensures !s.bg.TrueColour? ==> s.fg == c
  {
    RankTables(grey);
    match mode
    case Blocks => Styled(FullBlock, c, DefaultBackground)
    case Dots => Styled(Bullet, c, Black)
    case Ascii =>
      var g :=
        if grey <= 42 then "@"
        else if grey <= 85 then "#"
        else if grey <= 127 then "+"
        else if grey <= 170 then ":"
        else if grey <= 212 then "."
        else "-";
      Styled(g, Grey, TrueColour(c))
    case Numbers =>
      var g :=
        if grey <= 42 then "8"
        else if grey <= 85 then "5"
        else if grey <= 127 then "3"
        else if grey <= 170 then "2"
        else if grey <= 212 then "1"
        else "0";
      Styled(g, Grey, TrueColour(c))
    case Unicode =>
      var g :=
        if grey <= 63 then FullBlock
        else if grey <= 127 then DarkShade
        else if grey <= 191 then MediumShade
        else LightShade;
      Styled(g, c, Black)
  }

  /** The glyphs of a mode, from the darkest grey level to the lightest. */
  function Ramp(mode: CharacterMode): (ramp: seq<string>)
    ensures |ramp| == |Boundaries(mode)| + 1
  {
    match mode
    case Blocks => [FullBlock]
    case Dots => [Bullet]
    case Ascii => ["@", "#", "+", ":", ".", "-"]
    case Numbers => ["8", "5", "3", "2", "1", "0"]
    case Unicode => [FullBlock, DarkShade, MediumShade, LightShade]
  }

  /** The grey levels at which the next glyph of the ramp starts. */
  function Boundaries(mode: CharacterMode): seq<int>
  {
    match mode
    case Blocks => []
    case Dots => []
    case Ascii => SixthBoundaries
    case Numbers => SixthBoundaries
    case Unicode => [64, 128, 192]
  }

  const SixthBoundaries: seq<int> := [43, 86, 128, 171, 213]

  /** How many of `bounds` are at or below `grey`. */
  function Rank(bounds: seq<int>, grey: int): (n: nat)
    ensures n <= |bounds|
  {
    if bounds == [] then 0
    else (if bounds[0] <= grey then 1 else 0) + Rank(bounds[1..], grey)
  }

  /** The position in the ramp of the glyph for `grey`. */
  function GlyphIndex(mode: CharacterMode, grey: U8): (i: nat)
    ensures i < |Ramp(mode)|
  {
    Rank(Boundaries(mode), grey)
  }

  /** `Rank` on the two literal boundary tables, unfolded once per entry. */
  lemma RankTables(grey: U8)
    ensures Rank(SixthBoundaries, grey) ==
      (if grey <= 42 then 0 else if grey <= 85 then 1 else if grey <= 127 then 2
       else if grey <= 170 then 3 else if grey <= 212 then 4 else 5)
    ensures Rank([64, 128, 192], grey) ==
      (if grey <= 63 then 0 else if grey <= 127 then 1 else if grey <= 191 then 2 else 3)
  {
    var one := if grey >= 43 then 1 else 0;
    assert Rank([], grey) == 0;
    assert Rank([213], grey) == if grey >= 213 then 1 else 0;
    assert Rank([171, 213], grey) == (if grey >= 171 then 1 else 0) + Rank([213], grey);
    assert Rank([128, 171, 213], grey) == (if grey >= 128 then 1 else 0) + Rank([171, 213], grey);
    assert Rank([86, 128, 171, 213], grey) == (if grey >= 86 then 1 else 0) + Rank([128, 171, 213], grey);
    assert Rank(SixthBoundaries, grey) == one + Rank([86, 128, 171, 213], grey);
    assert Rank([192], grey) == if grey >= 192 then 1 else 0;
    assert Rank([128, 192], grey) == (if grey >= 128 then 1 else 0) + Rank([192], grey);
    assert Rank([64, 128, 192], grey) == (if grey >= 64 then 1 else 0) + Rank([128, 192], grey);
  }

  /** A lighter pixel never gets a denser glyph. */
  lemma {:induction false} RankMonotone(bounds: seq<int>, g1: int, g2: int)
    requires g1 <= g2
    ensures Rank(bounds, g1) <= Rank(bounds, g2)
    decreases |bounds|
  {
    if bounds != [] {
      RankMonotone(bounds[1..], g1, g2);
    }
  }

  /** With increasing boundaries, the glyph changes exactly at each
      boundary: one below `bounds[i]` the index is `i`, at it `i + 1`. */
  lemma {:induction false} RankAtBoundary(bounds: seq<int>, i: nat)
    requires forall j, k :: 0 <= j < k < |bounds| ==> bounds[j] < bounds[k]
    requires i < |bounds|
    ensures Rank(bounds, bounds[i] - 1) == i
    ensures Rank(bounds, bounds[i]) == i + 1
    decreases |bounds|
  {
    if i == 0 {
      RankBelowAll(bounds[1..], bounds[0]);
      RankBelowAll(bounds[1..], bounds[0] - 1);
    } else {
      RankAtBoundary(bounds[1..], i - 1);
    }
  }

  lemma {:induction false} RankBelowAll(bounds: seq<int>, grey: int)
    requires forall j :: 0 <= j < |bounds| ==> grey < bounds[j]
    ensures Rank(bounds, grey) == 0
    decreases |bounds|
  {
    if bounds != [] {
      RankBelowAll(bounds[1..], grey);
    }
  }

  lemma {:induction false} RankAboveAll(bounds: seq<int>, grey: int)
    requires forall j :: 0 <= j < |bounds| ==> bounds[j] <= grey
    ensures Rank(bounds, grey) == |bounds|
    decreases |bounds|
  {
    if bounds != [] {
      RankAboveAll(bounds[1..], grey);
    }
  }

  /** Every mode's table is total and monotone over the grey levels: grey 0
      picks the first glyph of the ramp, grey 255 the last, and a lighter
      grey never moves back along the ramp. */
  lemma GlyphTableMonotone(mode: CharacterMode, c: Rgb, g1: U8, g2: U8)
    requires g1 <= g2
    ensures GlyphIndex(mode, g1) <= GlyphIndex(mode, g2)
    ensures Style(mode, c, 0).glyph == Ramp(mode)[0]
    ensures Style(mode, c, 255).glyph == Ramp(mode)[|Ramp(mode)| - 1]
  {
    RankMonotone(Boundaries(mode), g1, g2);
    RankBelowAll(Boundaries(mode), 0);
    RankAboveAll(Boundaries(mode), 255);
  }

  /** The glyph switches exactly at the grey levels of the source's match
      arms: 42/43, 85/86, 127/128, 170/171, 212/213 for Ascii and Numbers,
      63/64, 127/128, 191/192 for Unicode. */
  lemma GlyphSwitchesAtBoundaries(mode: CharacterMode, i: nat)
    requires i < |Boundaries(mode)|
    ensures 0 < Boundaries(mode)[i] <= 255
    ensures GlyphIndex(mode, Boundaries(mode)[i] - 1) == i
    ensures GlyphIndex(mode, Boundaries(mode)[i]) == i + 1
  {
    RankAtBoundary(Boundaries(mode), i);
  }

  /** Blocks and Dots print the same glyph whatever the grey level; the
      pixel colour alone decides what is seen. */
  lemma SolidModesIgnoreGrey(mode: CharacterMode, c: Rgb, g1: U8, g2: U8)
    requires mode in {Blocks, Dots}
    ensures Style(mode, c, g1) == Style(mode, c, g2)
    ensures Style(mode, c, g1).fg == c
  {
  }
}

=== FILE: numeric.dfy ===
/** The fixed-width integer behaviour of the player, written out over
    Dafny's unbounded integers: the widths it stores values in and the
    casts it performs between floats and integers. */
module Numeric {

  /** An unsigned 8-bit value (`u8`): one colour channel or a grey level. */
  type U8 = x: int | 0 <= x < 0x100

  /** An unsigned 16-bit value (`u16`): terminal sizes, cursor positions,
      the pixel clear distance. */
  type U16 = x: int | 0 <= x < 0x1_0000

  const I64Min: int := -0x8000_0000_0000_0000
  const I64Max: int := 0x7FFF_FFFF_FFFF_FFFF

  /** `n as u16` for an unsigned value: the low 16 bits are kept. */
  function AsU16(n: nat): (r: U16)
    ensures n < 0x1_0000 ==> r == n
    ensures r <= n && (n - r) % 0x1_0000 == 0
  {
    n % 0x1_0000
  }

  /** `a.saturating_sub(b)` on unsigned integers. */
  function SaturatingSub(a: nat, b: nat): (r: nat)
    ensures a >= b ==> r + b == a
    ensures a <= b ==> r == 0
  {
    if a >= b then a - b else 0
  }

  function Max(a: int, b: int): (r: int)
    ensures r >= a && r >= b
    ensures r == a || r == b
  {
    if a >= b then a else b
  }

  /** Rounding toward zero, which is what a float-to-integer `as` cast does. */
  function TruncateTowardZero(x: real): (r: int)
    ensures x >= 0.0 ==> r as real <= x < r as real + 1.0
    ensures x <= 0.0 ==> r as real - 1.0 < x <= r as real
  {
    if x >= 0.0 then x.Floor else -((-x).Floor)
  }

  /** `x as i64` for a float `x`: rounds toward zero and saturates at the
      bounds of `i64`. */
  function FloatToI64(x: real): (r: int)
    ensures I64Min <= r <= I64Max
    ensures I64Min as real <= x <= I64Max as real ==> r == TruncateTowardZero(x)
    ensures I64Min <= TruncateTowardZero(x) <= I64Max ==> r == TruncateTowardZero(x)
    ensures TruncateTowardZero(x) > I64Max ==> r == I64Max
    ensures TruncateTowardZero(x) < I64Min ==> r == I64Min
  {
    var t := TruncateTowardZero(x);
    if t < I64Min then I64Min else if t > I64Max then I64Max else t
  }

  /** `x as u64` for a float `x`: rounds toward zero and saturates at 0
      below (the upper saturation is not modelled, see README). */
  function FloatToU64(x: real): (r: nat)
    ensures x <= 0.0 ==> r == 0
    ensures x >= 0.0 ==> r as real <= x < r as real + 1.0
  {
    if x <= 0.0 then 0 else x.Floor
  }

  /** Integer division seen through exact real division: the floor of
      `a / b` over the reals is Dafny's integer `a / b` for a natural `a`. */
  lemma RealDivFloor(a: nat, b: nat)
    requires b > 0
    ensures (a as real / b as real).Floor == a / b
  {
    var q, m := a / b, a % b;
    assert a == q * b + m;
    assert a as real / b as real == q as real + m as real / b as real;
    assert 0.0 <= m as real / b as real < 1.0;
  }
}

=== FILE: playback.dfy ===
/** The render loop and the key handler of the player (src/main.rs:89-224),
    as sequential state transitions.

    The source runs the key handler and the render loop as two tasks that
    share the frame counter under a lock; here every key press and every
    received frame is one event, applied one after the other. A received
    frame is one atomic step: its increment of the counter and the later
    read for the end-of-stream test see no key press in between.
    Times are exact reals where the source uses `f32`/`f64`; the casts back
    to integers are written out (`Numeric.FloatToU64`, `Numeric.FloatToI64`).
    Terminal output, the header and footer, and clock readings are left
    out or taken as parameters. */
module Playback {
  import opened Numeric
  import opened Wrappers
  import opened FrameTimes

  /** A source frame rate. The render task divides by it before the key
      handler is spawned (src/main.rs:95), so a zero rate panics there and
      never reaches the transitions below. */
  type Fps = n: nat | n > 0 witness 1

  /** The total length of the stream, or none for a live stream. */
  datatype DurationType = Fixed(seconds: nat) | Live

  /** The playback position: frames shown so far, whether seeking is off
      (`video.live`), and the source frame rate. */
  datatype Transport = Transport(framesSeen: nat, live: bool, fps: Fps)

  /** `frames_seen as f32 / fps as f32`, exactly. */
  function CurrentTime(t: Transport): real
  {
    t.framesSeen as real / t.fps as real
  }

  /** A seek: the new position and the offset sent to the decoder, in
      milliseconds. */
  datatype Seeked = Seeked(transport: Transport, sentMillis: int)

  /** Key `l`: jump five seconds ahead. */
  function SeekForward(t: Transport): (r: Seeked)
    ensures r.transport == t.(framesSeen := t.framesSeen + 5 * t.fps)
    ensures t.framesSeen * 1000 / t.fps + 5000 <= I64Max ==>
      r.sentMillis == t.framesSeen * 1000 / t.fps + 5000
    ensures t.framesSeen * 1000 / t.fps + 5000 > I64Max ==> r.sentMillis == I64Max
  {
    Seeked(t.(framesSeen := ForwardFrames(t)), ForwardMillis(t))
  }

  /** `((current_time + 5.0) * fps) as u64`. */
  function ForwardFrames(t: Transport): (n: nat)
    ensures n == t.framesSeen + 5 * t.fps
  {
    ScaleBack(t.framesSeen, t.fps);
    FloatToU64((CurrentTime(t) + 5.0) * t.fps as real)
  }

  /** `(current_time * 1000.0 + 5000.0) as i64`. */
  function ForwardMillis(t: Transport): (ms: int)
    ensures t.framesSeen * 1000 / t.fps + 5000 <= I64Max ==> ms == t.framesSeen * 1000 / t.fps + 5000
    ensures t.framesSeen * 1000 / t.fps + 5000 > I64Max ==> ms == I64Max
  {
    ForwardOffset(t.framesSeen, t.fps);
    FloatToI64(CurrentTime(t) * 1000.0 + 5000.0)
  }

  /** Key `k`: jump five seconds back, not before the start. The offset
      sent to the decoder is not clamped: below five seconds it lies in
      [-5000, 0], and it is negative up to t = 4.999 s. */
  function SeekBackward(t: Transport): (r: Seeked)
    ensures r.transport == t.(framesSeen := SaturatingSub(t.framesSeen, 5 * t.fps))
    ensures t.framesSeen < 5 * t.fps ==> r.transport.framesSeen == 0 && -5000 <= r.sentMillis <= 0
    ensures t.framesSeen < 5 * t.fps ==>
      r.sentMillis == -((5000 * t.fps - 1000 * t.framesSeen) / t.fps)
    ensures t.framesSeen * 1000 <= 4999 * t.fps ==> r.sentMillis < 0
    ensures t.framesSeen >= 5 * t.fps && t.framesSeen * 1000 / t.fps - 5000 <= I64Max ==>
      r.sentMillis == t.framesSeen * 1000 / t.fps - 5000
    ensures t.framesSeen >= 5 * t.fps && t.framesSeen * 1000 / t.fps - 5000 > I64Max ==>
      r.sentMillis == I64Max
  {
    Seeked(t.(framesSeen := BackwardFrames(t)), BackwardMillis(t))
  }

  /** `((current_time - 5.0).max(0.0) * fps) as u64`. */
  function BackwardFrames(t: Transport): (n: nat)
    ensures n == SaturatingSub(t.framesSeen, 5 * t.fps)
  {
    var time := CurrentTime(t);
    var back := if time - 5.0 >= 0.0 then time - 5.0 else 0.0;
    ScaleBack(t.framesSeen, t.fps);
    FloatToU64(back * t.fps as real)
  }

  /** `(current_time * 1000.0 - 5000.0) as i64`. */
  function BackwardMillis(t: Transport): (ms: int)
    ensures t.framesSeen < 5 * t.fps ==> -5000 <= ms <= 0
    ensures t.framesSeen < 5 * t.fps ==>
      ms == -((5000 * t.fps - 1000 * t.framesSeen) / t.fps)
    ensures t.framesSeen * 1000 <= 4999 * t.fps ==> ms < 0
    ensures t.framesSeen >= 5 * t.fps && t.framesSeen * 1000 / t.fps - 5000 <= I64Max ==>
      ms == t.framesSeen * 1000 / t.fps - 5000
    ensures t.framesSeen >= 5 * t.fps && t.framesSeen * 1000 / t.fps - 5000 > I64Max ==> ms == I64Max
  {
    BackwardCast(t.framesSeen, t.fps);
    FloatToI64(CurrentTime(t) * 1000.0 - 5000.0)
  }

  /** The backward offset after the `as i64` cast. */
  lemma BackwardCast(n: nat, fps: Fps)
    ensures var ms := FloatToI64(n as real / fps as real * 1000.0 - 5000.0);
      && (n < 5 * fps ==> -5000 <= ms <= 0 && ms == -((5000 * fps - 1000 * n) / fps))
      && (n * 1000 <= 4999 * fps ==> ms < 0)
      && (n >= 5 * fps && n * 1000 / fps - 5000 <= I64Max ==> ms == n * 1000 / fps - 5000)
      && (n >= 5 * fps && n * 1000 / fps - 5000 > I64Max ==> ms == I64Max)
  {
    var x := n as real / fps as real * 1000.0 - 5000.0;
    BackwardOffset(n, fps);
    MillisAsDivision(n, fps);
    BackwardTruncationEarly(n * 1000, fps);
    assert x == (n * 1000) as real / fps as real - 5000.0;
    if n < 5 * fps {
      assert I64Min as real <= x <= I64Max as real;
    } else {
      BackwardCastLate(n, fps);
    }
  }

  /** From five seconds on the offset is the exact one, saturated at the
      top of `i64`. */
  lemma BackwardCastLate(n: nat, fps: Fps)
    requires n >= 5 * fps
    ensures var ms := FloatToI64(n as real / fps as real * 1000.0 - 5000.0);
      && (n * 1000 / fps - 5000 <= I64Max ==> ms == n * 1000 / fps - 5000)
      && (n * 1000 / fps - 5000 > I64Max ==> ms == I64Max)
  {
    BackwardOffset(n, fps);
  }

  /** Less than five seconds in, the offset is rounded toward zero: 3 s at
      30 fps sends -2000 ms, and 4.9995 s sends 0 rather than -1. */
  lemma BackwardMillisExamples()
    ensures BackwardMillis(Transport(90, false, 30)) == -2000
    ensures BackwardMillis(Transport(9999, false, 2000)) == 0
    ensures BackwardMillis(Transport(0, false, 25)) == -5000
  {
  }

  /** Seconds times the frame rate is the frame count again, so shifting
      the time by five seconds shifts the count by five seconds of frames. */
  lemma ScaleBack(frames: nat, fps: Fps)
    ensures (frames as real / fps as real + 5.0) * fps as real == (frames + 5 * fps) as real
    ensures frames >= 5 * fps ==>
      (frames as real / fps as real - 5.0) * fps as real == (frames - 5 * fps) as real
    ensures frames < 5 * fps <==> frames as real / fps as real - 5.0 < 0.0
  {
    var f := fps as real;
    var x := frames as real / f;
    DivTimes(frames as real, f);
    assert (x + 5.0) * f == x * f + 5.0 * f;
    assert (x - 5.0) * f == x * f - 5.0 * f;
    LessScaled(x - 5.0, f);
  }

  lemma DivTimes(a: real, b: real)
    requires b > 0.0
    ensures (a / b) * b == a
  {
  }

  lemma LessScaled(x: real, b: real)
    requires b > 0.0
    ensures x < 0.0 <==> x * b < 0.0
    ensures x <= 0.0 <==> x * b <= 0.0
  {
  }

  lemma ForwardOffset(frames: nat, fps: Fps)
    ensures (frames as real / fps as real * 1000.0 + 5000.0) >= 0.0
    ensures TruncateTowardZero(frames as real / fps as real * 1000.0 + 5000.0) == frames * 1000 / fps + 5000
  {
    MillisAsDivision(frames, fps);
    RealDivFloor(frames * 1000, fps);
  }

  lemma MillisAsDivision(frames: nat, fps: Fps)
    ensures frames as real / fps as real * 1000.0 == (frames * 1000) as real / fps as real
    ensures frames as real / fps as real * 1000.0 >= 0.0
  {
  }

  lemma BackwardOffset(frames: nat, fps: Fps)
    ensures var x := frames as real / fps as real * 1000.0 - 5000.0;
      && x >= -5000.0
      && (frames < 5 * fps <==> x < 0.0)
      && (frames * 1000 <= 4999 * fps ==> x <= -1.0)
      && (frames >= 5 * fps ==> TruncateTowardZero(x) == frames * 1000 / fps - 5000)
  {
    MillisAsDivision(frames, fps);
    BackwardSign(frames * 1000, fps, 5000);
    BackwardSign(frames * 1000, fps, 4999);
    assert 4999.0 == 4999 as real;
    if frames >= 5 * fps {
      BackwardTruncation(frames * 1000, fps);
    }
  }

  /** m / fps - k is negative exactly when m < k * fps. */
  lemma BackwardSign(m: nat, fps: Fps, k: nat)
    ensures m as real / fps as real - k as real < 0.0 <==> m < k * fps
    ensures m as real / fps as real - k as real <= 0.0 <==> m <= k * fps
  {
    var y := m as real / fps as real;
    DivTimes(m as real, fps as real);
    LessScaled(y - k as real, fps as real);
    assert (y - k as real) * fps as real == (m - k * fps) as real;
  }

  /** Below 5000 ms the truncation rounds up: the offset is minus the
      rounded-down distance to 5000 ms. */
  lemma BackwardTruncationEarly(m: nat, fps: Fps)
    ensures m < 5000 * fps ==>
      TruncateTowardZero(m as real / fps as real - 5000.0) == -((5000 * fps - m) / fps)
  {
    if m < 5000 * fps {
      var gap: nat := 5000 * fps - m;
      BackwardSign(m, fps, 5000);
      RealDivFloor(gap, fps);
      GapAsDivision(m, gap, fps);
    }
  }

  lemma GapAsDivision(m: nat, gap: nat, fps: Fps)
    requires gap + m == 5000 * fps
    ensures 5000.0 - m as real / fps as real == gap as real / fps as real
  {
    var f := fps as real;
    DivTimes(m as real, f);
    DivTimes(gap as real, f);
    assert (5000.0 - m as real / f) * f == gap as real;
    CancelFactor(5000.0 - m as real / f, gap as real / f, f, gap as real);
  }

  lemma CancelFactor(a: real, b: real, f: real, c: real)
    requires f > 0.0 && a * f == c && b * f == c
    ensures a == b
  {
    assert (a - b) * f == a * f - b * f;
  }

  lemma BackwardTruncation(m: nat, fps: Fps)
    requires m >= 5000 * fps
    ensures TruncateTowardZero(m as real / fps as real - 5000.0) == m / fps - 5000
  {
    RealDivFloor(m, fps);
    BackwardSign(m, fps, 5000);
  }

  /** Crossterm's key modifiers. */
  datatype Modifier = Shift | Control | Alt | Super | Hyper | Meta

  datatype KeyCode = Char(c: char) | OtherKey

  /** A terminal input event: a key with its modifiers, or anything else
      (mouse, resize, focus, paste), which the handler ignores. */
  datatype InputEvent = Key(code: KeyCode, modifiers: set<Modifier>) | NonKey

  /** `q` with any modifiers, or `c` with exactly Control. */
  predicate IsQuitKey(code: KeyCode, modifiers: set<Modifier>)
  {
    code == Char('q') || (code == Char('c') && modifiers == {Control})
  }

  /** What the key handler does with one input event. */
  datatype KeyOutcome = Quit | Continue(transport: Transport, sent: Option<int>)

  /** The key handler (src/main.rs:107-154): quit keys end the session;
      when not live, `l` and `k` seek; everything else changes nothing. */
  function HandleInput(t: Transport, ev: InputEvent): (o: KeyOutcome)
    ensures o == Quit <==> ev.Key? && IsQuitKey(ev.code, ev.modifiers)
    ensures t.live && o.Continue? ==> o == Continue(t, None)
    ensures o.Continue? ==> o.transport.live == t.live && o.transport.fps == t.fps
    ensures o.Continue? && o.sent.None? ==> o.transport == t
    ensures o.Continue? && o.sent.Some? <==> !t.live && ev.Key? && ev.code in {Char('l'), Char('k')}
    ensures !t.live && ev.Key? && ev.code == Char('l') ==>
      o == Continue(SeekForward(t).transport, Some(SeekForward(t).sentMillis))
    ensures !t.live && ev.Key? && ev.code == Char('k') ==>
      o == Continue(SeekBackward(t).transport, Some(SeekBackward(t).sentMillis))
  {
    match ev
    case NonKey => Continue(t, None)
    case Key(code, modifiers) =>
      if IsQuitKey(code, modifiers) then Quit
      else if !t.live && code == Char('l') then
        var s := SeekForward(t);
        Continue(s.transport, Some(s.sentMillis))
      else if !t.live && code == Char('k') then
        var s := SeekBackward(t);
        Continue(s.transport, Some(s.sentMillis))
      else Continue(t, None)
  }

  /** The render task's state: the position, the window of paint
      timestamps, the target frame time in microseconds, whether the frame
      rate cap is off, and the seek offsets sent to the decoder so far. */
  datatype Session = Session(
    transport: Transport,
    frameTimes: seq<nat>,
    frameTimeMicros: nat,
    removeFpsCap: bool,
    seeksSent: seq<int>)

  datatype StartPanic = ZeroFps

  const MicrosPerSecond: nat := 1_000_000

  /** Start of `handle_render`: the target frame time is 1,000,000 / fps
      microseconds, rounded down; a zero fps panics. */
  function StartSession(fps: nat, live: bool, removeFpsCap: bool): (r: Result<Session, StartPanic>)
    ensures r.Err? <==> fps == 0
    ensures r.Ok? ==>
      && r.value.transport == Transport(0, live, fps)
      && r.value.frameTimes == [] && r.value.seeksSent == []
      && r.value.removeFpsCap == removeFpsCap
      && r.value.frameTimeMicros * fps <= MicrosPerSecond < (r.value.frameTimeMicros + 1) * fps
  {
    if fps == 0 then Err(ZeroFps)
    else Ok(Session(Transport(0, live, fps), [], MicrosPerSecond / fps, removeFpsCap, []))
  }

  /** The pacing sleep after a paint that took `paintNanos`: the rest of
      the target frame time, or nothing once the paint overran it; no sleep
      at all when the cap is off. */
  function PacingSleep(s: Session, paintNanos: nat): (sleep: Option<nat>)
    ensures sleep.None? <==> s.removeFpsCap
    ensures sleep.Some? && paintNanos >= s.frameTimeMicros * 1000 ==> sleep.value == 0
    ensures sleep.Some? && paintNanos <= s.frameTimeMicros * 1000 ==>
      sleep.value + paintNanos == s.frameTimeMicros * 1000
  {
    var sleep := SaturatingSub(s.frameTimeMicros * 1000, paintNanos);
    if s.removeFpsCap then None else Some(sleep)
  }

  /** A stream with a known duration ends once less than this many seconds
      remain. */
  const EndTolerance: real := 0.05

  predicate StreamFinished(duration: DurationType, t: Transport)
  {
    duration.Fixed? && duration.seconds as real - CurrentTime(t) < EndTolerance
  }

  /** The timestamp window after a paint completes at `now`: the last ten
      timestamps, ending with `now`. */
  function PushTime(times: seq<nat>, now: nat): (kept: seq<nat>)
    ensures |kept| == if |times| < Window then |times| + 1 else Window
    ensures kept[|kept| - 1] == now
    ensures kept[..|kept| - 1] == times[|times| + 1 - |kept|..]
  {
    KeepRecentAfterPush(times, now, Window);
    KeepRecent(times + [now], Window)
  }

  datatype FrameReport = FrameReport(session: Session, slept: Option<nat>, renderFps: real, ended: bool)

  /** One iteration of the render loop for a received frame: count it,
      sleep for the pacing, record the completion time `now`, compute the
      observed rate over the window including `now`, keep the last ten
      timestamps, and end the session when a fixed-length stream is within
      0.05 s of its end. */
  function OnFrame(s: Session, duration: DurationType, paintNanos: nat, now: nat): (r: FrameReport)
    ensures r.session == s.(transport := r.session.transport, frameTimes := r.session.frameTimes)
    ensures r.session.transport == s.transport.(framesSeen := s.transport.framesSeen + 1)
    ensures r.slept == PacingSleep(s, paintNanos)
    ensures r.session.frameTimes == PushTime(s.frameTimes, now)
    ensures r.renderFps == CalculateFps(s.frameTimes + [now])
    ensures r.ended <==> StreamFinished(duration, r.session.transport)
  {
    var transport := s.transport.(framesSeen := s.transport.framesSeen + 1);
    var slept := PacingSleep(s, paintNanos);
    var pushed := s.frameTimes + [now];
    var renderFps := CalculateFps(pushed);
    var kept := PushTime(s.frameTimes, now);
    FrameReport(s.(transport := transport, frameTimes := kept), slept, renderFps,
                StreamFinished(duration, transport))
  }

  /** The end test in integers: d - n / fps < 1/20 exactly when
      20 * (d * fps - n) < fps. */
  lemma StreamFinishedInFrames(d: nat, t: Transport)
    ensures StreamFinished(Fixed(d), t) <==> 20 * (d * t.fps - t.framesSeen) < t.fps
  {
    var f := t.fps as real;
    var x := t.framesSeen as real / f;
    assert x * f == t.framesSeen as real;
    assert (d as real - x) * 20.0 * f == (20 * (d * t.fps - t.framesSeen)) as real;
  }

  /** A stream of 10 s at 25 fps ends with the frame that brings the time
      to 9.96 s, and not one frame earlier. */
  lemma EndOfStreamExample()
    ensures !StreamFinished(Fixed(10), Transport(248, false, 25))
    ensures StreamFinished(Fixed(10), Transport(249, false, 25))
  {
    StreamFinishedInFrames(10, Transport(248, false, 25));
    StreamFinishedInFrames(10, Transport(249, false, 25));
  }

  /** At 30 fps a frame painted in 10 ms is followed by a sleep of
      23.333 ms. */
  lemma PacingExample(live: bool)
    ensures StartSession(30, live, false).Ok?
    ensures PacingSleep(StartSession(30, live, false).value, 10_000_000) == Some(23_333_000)
  {
  }

  /** Events in the order they reach the frame counter. */
  datatype Event =
    | Input(input: InputEvent)
    | FrameReceived(duration: DurationType, paintNanos: nat, now: nat)
    | ChannelClosed

  datatype EndReason = QuitRequested | EndOfStream | StreamClosed

  datatype Status = Running(session: Session) | Ended(reason: EndReason)

  /** One event: a key goes to the key handler, a frame through the render
      loop, and a closed frame channel ends the session. */
  function Step(s: Session, e: Event): (r: Status)
    ensures e.ChannelClosed? ==> r == Ended(StreamClosed)
    ensures e.Input? && e.input.Key? && IsQuitKey(e.input.code, e.input.modifiers) ==> r == Ended(QuitRequested)
    ensures r == Ended(EndOfStream) <==>
      e.FrameReceived? && StreamFinished(e.duration, s.transport.(framesSeen := s.transport.framesSeen + 1))
    ensures r.Running? && e.FrameReceived? ==>
      r.session.transport.framesSeen == s.transport.framesSeen + 1 && r.session.seeksSent == s.seeksSent
    ensures e.FrameReceived? && r.Running? ==>
      r.session == OnFrame(s, e.duration, e.paintNanos, e.now).session
    ensures e.FrameReceived? ==>
      (r.Running? <==> !StreamFinished(e.duration, s.transport.(framesSeen := s.transport.framesSeen + 1)))
    ensures e.Input? && HandleInput(s.transport, e.input).Continue? ==>
      var o := HandleInput(s.transport, e.input);
      r == Running(s.(transport := o.transport,
                      seeksSent := s.seeksSent + (if o.sent.Some? then [o.sent.value] else [])))
  {
    match e
    case ChannelClosed => Ended(StreamClosed)
    case Input(ev) =>
      (match HandleInput(s.transport, ev)
       case Quit => Ended(QuitRequested)
       case Continue(t, sent) =>
         Running(s.(transport := t, seeksSent := s.seeksSent + (if sent.Some? then [sent.value] else []))))
    case FrameReceived(duration, paintNanos, now) =>
      var report := OnFrame(s, duration, paintNanos, now);
      if report.ended then Ended(EndOfStream) else Running(report.session)
  }

  /** Apply events in order until the session ends. */
  function Run(s: Session, events: seq<Event>): Status
    decreases |events|
  {
    if events == [] then Running(s)
    else
      match Step(s, events[0])
      case Ended(reason) => Ended(reason)
      case Running(next) => Run(next, events[1..])
  }

  /** The number of frames among the events. */
  function CountFrames(events: seq<Event>): nat
    decreases |events|
  {
    if events == [] then 0
    else (if events[0].FrameReceived? then 1 else 0) + CountFrames(events[1..])
  }

  /** A quit key ends the session whatever the position and mode. */
  lemma QuitFromAnyState(s: Session, modifiers: set<Modifier>)
    ensures Step(s, Input(Key(Char('q'), modifiers))) == Ended(QuitRequested)
    ensures Step(s, Input(Key(Char('c'), {Control}))) == Ended(QuitRequested)
  {
  }

  /** Without Control, `c` is an ordinary key. */
  lemma PlainCIsNotQuit(s: Session)
    ensures Step(s, Input(Key(Char('c'), {}))).Running?
    ensures Step(s, Input(Key(Char('c'), {Control, Shift}))).Running?
  {
    assert {Control, Shift} != {Control} by { assert Shift in {Control, Shift}; }
  }

  /** A live stream never ends on the time test. */
  lemma LiveDurationNeverEnds(s: Session, paintNanos: nat, now: nat)
    ensures Step(s, FrameReceived(Live, paintNanos, now)).Running?
  {
  }

  /** In a live session no key moves the position or reaches the decoder:
      the frame counter counts exactly the frames rendered, and no seek
      is sent. */
  lemma {:induction false} LiveRunCountsFrames(s: Session, events: seq<Event>)
    requires s.transport.live
    ensures Run(s, events).Running? ==>
      && Run(s, events).session.transport.framesSeen == s.transport.framesSeen + CountFrames(events)
      && Run(s, events).session.seeksSent == s.seeksSent
      && Run(s, events).session.transport.live
    decreases |events|
  {
    if events != [] {
      match Step(s, events[0])
      case Ended(_) =>
      case Running(next) =>
        LiveRunCountsFrames(next, events[1..]);
    }
  }

  /** In a seekable session `l` moves five seconds of frames ahead and
      `k` five seconds back (not before frame 0); each appends its offset,
      and only that, to the offsets already sent. */
  lemma SeekKeysInSession(s: Session, modifiers: set<Modifier>)
    requires !s.transport.live
    ensures var n, fps := s.transport.framesSeen, s.transport.fps;
      Step(s, Input(Key(Char('l'), modifiers)))
        == Running(s.(transport := s.transport.(framesSeen := n + 5 * fps),
                      seeksSent := s.seeksSent + [SeekForward(s.transport).sentMillis]))
    ensures var n, fps := s.transport.framesSeen, s.transport.fps;
      Step(s, Input(Key(Char('k'), modifiers)))
        == Running(s.(transport := s.transport.(framesSeen := SaturatingSub(n, 5 * fps)),
                      seeksSent := s.seeksSent + [SeekBackward(s.transport).sentMillis]))
  {
  }

  /** Seeking back from the start keeps the position at zero and sends
      -5000 ms to the decoder. */
  lemma BackFromStartSendsNegative(t: Transport)
    requires t.framesSeen == 0
    ensures SeekBackward(t).transport.framesSeen == 0
    ensures SeekBackward(t).sentMillis == -5000
  {
    var x := CurrentTime(t) * 1000.0 - 5000.0;
    assert x == -5000.0;
  }

  /** Forward then back returns to the same frame. */
  lemma ForwardThenBack(t: Transport)
    ensures SeekBackward(SeekForward(t).transport).transport == t
  {
  }
}

=== FILE: render.dfy ===
/** `Video::print_frame_to_terminal` and `Video::fps` (src/video.rs:127-244).

    A frame is turned into a list of paint operations, one per repainted
    pixel, each naming the terminal cell the cursor is moved to and the
    styled glyph printed there. The escape sequences themselves, the
    buffered write and the terminal-size query are left out: the terminal
    width is a parameter, and so are the grey-level function and the clock
    reading taken after painting. */
module Render {
  import opened Numeric
  import opened Wrappers
  import opened Colour
  import opened Glyphs
  import opened Frames
  import opened Diff
  import opened FrameTimes

  /** The terminal rows above the picture (the header). */
  const YOffset: nat := 2

  /** Columns left free on the left so that a frame narrower than the
      terminal is centred: the two margins differ by at most one column. */
  function XOffset(frameWidth: nat, terminalWidth: U16): (off: nat)
    ensures frameWidth < terminalWidth ==>
      off + frameWidth + off <= terminalWidth <= off + frameWidth + off + 1
    ensures frameWidth >= terminalWidth ==> off == 0
  {
    if frameWidth < terminalWidth then (terminalWidth - frameWidth) / 2 else 0
  }

  /** Move the cursor to (`col`, `row`) and print `glyph` in these colours. */
  datatype PaintOp = PaintOp(col: U16, row: U16, glyph: string, fg: Rgb, bg: Background)

  /** The cursor column of pixel `p`, truncated to `u16` as the source does. */
  function Column(p: Pos, xOffset: nat): U16
  {
    AsU16(p.x + xOffset)
  }

  /** The cursor row of pixel `p`: two pixel rows per terminal row, below
      the header. */
  function Row(p: Pos): U16
  {
    AsU16(p.y / Stride + 1 + YOffset)
  }

  /** The paint operation for a repainted pixel. */
  function PaintCell(f: Frame, p: Pos, mode: CharacterMode, grey: Rgb -> U8, xOffset: nat): PaintOp
    requires InBounds(f, p)
  {
    var c := Pixel(f, p);
    var s := Style(mode, c, grey(c));
    PaintOp(Column(p, xOffset), Row(p), s.glyph, s.fg, s.bg)
  }

  /** The renderer's state: the last painted frame, the paint timestamps,
      the character mode and the clear distance. */
  datatype VideoState = VideoState(
    lastFrame: Option<Frame>,
    frameTimes: seq<nat>,
    characterMode: CharacterMode,
    clearDistance: U16)

  datatype Painted = Painted(ops: seq<PaintOp>, video: VideoState)

  /** `get_pixel` on the previous frame outside its bounds panics before
      anything is written. */
  datatype Panic = LastFrameOutOfBounds

  /** Paint `f` over the previous frame. On success the previous frame
      becomes `f` and the clock reading `now` is appended to the paint
      timestamps; nothing else in the state changes. The i-th operation
      paints the i-th repainted position (see `Diff.ChangedCells`). */
  function PrintFrameToTerminal(v: VideoState, f: Frame, terminalWidth: U16, grey: Rgb -> U8, now: nat)
    : (r: Result<Painted, Panic>)
    ensures r.Ok? <==> v.lastFrame.None? || Covers(v.lastFrame.value, f)
    ensures r.Ok? ==> r.value.video == v.(lastFrame := Some(f), frameTimes := v.frameTimes + [now])
    ensures r.Ok? ==>
      var cells := ChangedCells(f, v.lastFrame, v.clearDistance);
      && |r.value.ops| == |cells|
      && forall i :: 0 <= i < |cells| ==>
           r.value.ops[i] == PaintCell(f, cells[i], v.characterMode, grey, XOffset(f.width, terminalWidth))
  {
    if v.lastFrame.Some? && !CoversSampled(v.lastFrame.value, f) then
      Err(LastFrameOutOfBounds)
    else
      var cells := ChangedCells(f, v.lastFrame, v.clearDistance);
      var ops := PaintAll(f, cells, v.characterMode, grey, XOffset(f.width, terminalWidth));
      Ok(Painted(ops, v.(lastFrame := Some(f), frameTimes := v.frameTimes + [now])))
  }

  /** The paint operations of the listed positions, in order. */
  function PaintAll(f: Frame, cells: seq<Pos>, mode: CharacterMode, grey: Rgb -> U8, xOffset: nat)
    : (ops: seq<PaintOp>)
    requires forall i :: 0 <= i < |cells| ==> InBounds(f, cells[i])
    ensures |ops| == |cells|
    ensures forall i :: 0 <= i < |cells| ==> ops[i] == PaintCell(f, cells[i], mode, grey, xOffset)
  {
    seq(|cells|, i requires 0 <= i < |cells| => PaintCell(f, cells[i], mode, grey, xOffset))
  }

  /** The cursor positions of every operation fit `u16` without truncation:
      the frame's right edge after centring and its last terminal row stay
      within 65535. */
  predicate Addressable(f: Frame, terminalWidth: U16)
  {
    f.width + XOffset(f.width, terminalWidth) <= 0x1_0000
    && f.height / Stride + 1 + YOffset < 0x1_0000
  }

  /** Pixel (x, y) is painted at column x + x_offset and row y / 2 + 3. */
  lemma Placement(f: Frame, p: Pos, terminalWidth: U16)
    requires Sampled(f, p) && Addressable(f, terminalWidth)
    ensures Column(p, XOffset(f.width, terminalWidth)) == p.x + XOffset(f.width, terminalWidth)
    ensures Row(p) == p.y / 2 + 3
    ensures f.width < terminalWidth ==>
      XOffset(f.width, terminalWidth) <= Column(p, XOffset(f.width, terminalWidth)) < terminalWidth - XOffset(f.width, terminalWidth)
  {
    assert p.y / Stride <= f.height / Stride;
  }

  /** Two sampled pixels painted at the same terminal cell are the same
      pixel. */
  lemma PlacementInjective(f: Frame, p: Pos, q: Pos, terminalWidth: U16)
    requires Sampled(f, p) && Sampled(f, q) && Addressable(f, terminalWidth)
    requires Column(p, XOffset(f.width, terminalWidth)) == Column(q, XOffset(f.width, terminalWidth))
    requires Row(p) == Row(q)
    ensures p == q
  {
    Placement(f, p, terminalWidth);
    Placement(f, q, terminalWidth);
    assert p.y / 2 == q.y / 2;
  }

  /** Operations are emitted row by row, left to right within a row, and
      no terminal cell is painted twice in one frame. */
  lemma PaintOrder(v: VideoState, f: Frame, terminalWidth: U16, grey: Rgb -> U8, now: nat)
    requires v.lastFrame.None? || Covers(v.lastFrame.value, f)
    requires Addressable(f, terminalWidth)
    ensures var ops := PrintFrameToTerminal(v, f, terminalWidth, grey, now).value.ops;
      forall i, j :: 0 <= i < j < |ops| ==>
        ops[i].row < ops[j].row || (ops[i].row == ops[j].row && ops[i].col < ops[j].col)
  {
    var ops := PrintFrameToTerminal(v, f, terminalWidth, grey, now).value.ops;
    var cells := ChangedCells(f, v.lastFrame, v.clearDistance);
    forall i, j | 0 <= i < j < |ops|
      ensures ops[i].row < ops[j].row || (ops[i].row == ops[j].row && ops[i].col < ops[j].col)
    {
      var a, b := cells[i], cells[j];
      assert a in cells && b in cells && Before(a, b);
      Placement(f, a, terminalWidth);
      Placement(f, b, terminalWidth);
      if a.y < b.y {
        assert a.y / 2 < b.y / 2;
      }
    }
  }

  /** The first frame, or any frame with no previous frame, is painted
      completely: ceil(height / 2) * width operations, one for every
      sampled pixel. */
  lemma FirstFrameRepaintsAll(v: VideoState, f: Frame, terminalWidth: U16, grey: Rgb -> U8, now: nat)
    requires v.lastFrame.None?
    ensures PrintFrameToTerminal(v, f, terminalWidth, grey, now).Ok?
    ensures var ops := PrintFrameToTerminal(v, f, terminalWidth, grey, now).value.ops;
      && |ops| == (f.height + 1) / 2 * f.width
      && forall p :: Sampled(f, p) ==>
           PaintCell(f, p, v.characterMode, grey, XOffset(f.width, terminalWidth)) in ops
  {
    var cells := ChangedCells(f, None, v.clearDistance);
    var ops := PrintFrameToTerminal(v, f, terminalWidth, grey, now).value.ops;
    NoLastFrameRepaintsAll(f, v.clearDistance);
    forall p | Sampled(f, p)
      ensures PaintCell(f, p, v.characterMode, grey, XOffset(f.width, terminalWidth)) in ops
    {
      var i :| 0 <= i < |cells| && cells[i] == p;
      assert ops[i] == PaintCell(f, p, v.characterMode, grey, XOffset(f.width, terminalWidth));
    }
  }

  /** With a previous frame of the same size, a sampled pixel gets a paint
      operation at its terminal cell iff its colour is at least the clear
      distance away from the previous frame's pixel there. */
  lemma RepaintIffDistant(v: VideoState, f: Frame, terminalWidth: U16, grey: Rgb -> U8, now: nat, p: Pos)
    requires v.lastFrame.Some?
    requires v.lastFrame.value.width == f.width && v.lastFrame.value.height == f.height
    requires Addressable(f, terminalWidth) && Sampled(f, p)
    ensures PrintFrameToTerminal(v, f, terminalWidth, grey, now).Ok?
    ensures var ops := PrintFrameToTerminal(v, f, terminalWidth, grey, now).value.ops;
      (exists i :: 0 <= i < |ops| && ops[i].col == Column(p, XOffset(f.width, terminalWidth)) && ops[i].row == Row(p))
      <==> SquaredDistance(Pixel(f, p), Pixel(v.lastFrame.value, p)) >= v.clearDistance * v.clearDistance
  {
    SameSizeCovers(v.lastFrame.value, f);
    var cells := ChangedCells(f, v.lastFrame, v.clearDistance);
    OpAtCellIffListed(f, cells, v.characterMode, grey, terminalWidth, p);
  }

  /** Placement is one-to-one on sampled pixels: some operation lands on
      the terminal cell of `p` exactly when `p` is among the painted
      positions. */
  lemma OpAtCellIffListed(f: Frame, cells: seq<Pos>, mode: CharacterMode, grey: Rgb -> U8, terminalWidth: U16, p: Pos)
    requires Addressable(f, terminalWidth) && Sampled(f, p)
    requires forall q :: q in cells ==> Sampled(f, q)
    requires forall i :: 0 <= i < |cells| ==> InBounds(f, cells[i])
    ensures var off := XOffset(f.width, terminalWidth);
      var ops := PaintAll(f, cells, mode, grey, off);
      (exists i :: 0 <= i < |ops| && ops[i].col == Column(p, off) && ops[i].row == Row(p)) <==> p in cells
  {
    var off := XOffset(f.width, terminalWidth);
    var ops := PaintAll(f, cells, mode, grey, off);
    if i :| 0 <= i < |ops| && ops[i].col == Column(p, off) && ops[i].row == Row(p) {
      assert cells[i] in cells;
      PlacementInjective(f, cells[i], p, terminalWidth);
    }
    if p in cells {
      var i :| 0 <= i < |cells| && cells[i] == p;
      assert ops[i].col == Column(p, off) && ops[i].row == Row(p);
    }
  }

  /** Painting the same frame again with a clear distance of at least 1
      emits nothing. */
  lemma IdenticalFrameEmitsNothing(v: VideoState, f: Frame, terminalWidth: U16, grey: Rgb -> U8, now: nat)
    requires v.lastFrame == Some(f) && v.clearDistance >= 1
    ensures PrintFrameToTerminal(v, f, terminalWidth, grey, now).Ok?
    ensures PrintFrameToTerminal(v, f, terminalWidth, grey, now).value.ops == []
  {
    SameSizeCovers(f, f);
    UnchangedFrameRepaintsNothing(f, v.clearDistance);
  }

  /** A clear distance of 0 repaints every pixel even when a previous frame
      exists: the same operations as with no previous frame. */
  lemma ZeroDistancePaintsAsFirstFrame(v: VideoState, f: Frame, terminalWidth: U16, grey: Rgb -> U8, now: nat)
    requires v.lastFrame.Some? && Covers(v.lastFrame.value, f) && v.clearDistance == 0
    ensures PrintFrameToTerminal(v, f, terminalWidth, grey, now).Ok?
    ensures PrintFrameToTerminal(v, f, terminalWidth, grey, now).value.ops
         == PrintFrameToTerminal(v.(lastFrame := None), f, terminalWidth, grey, now).value.ops
  {
    ZeroThresholdRepaintsAll(f, v.lastFrame.value, v.clearDistance);
  }

  /** An observed render rate: `f64` division by a zero duration gives
      positive infinity. */
  datatype Rate = Finite(perSecond: real) | Infinite

  datatype FpsReading = FpsReading(video: VideoState, rate: Rate)

  /** The fewest timestamps `Video::fps` computes a rate from. */
  const FpsMinSamples: nat := 5

  /** `Video::fps`: drop all but the ten most recent timestamps, then report
      0 for fewer than five, otherwise their count over the seconds between
      the first and the last. */
  function Fps(v: VideoState): (r: FpsReading)
    ensures r.video == v.(frameTimes := KeepRecent(v.frameTimes, Window))
    ensures |r.video.frameTimes| < FpsMinSamples ==> r.rate == Finite(0.0)
    ensures |r.video.frameTimes| >= FpsMinSamples ==>
      var t := r.video.frameTimes;
      && (r.rate == Infinite <==> t[|t| - 1] <= t[0])
      && (r.rate.Finite? ==> r.rate.perSecond * Elapsed(t[0], t[|t| - 1]) as real == (|t| * NanosPerSecond) as real)
  {
    var times := KeepRecent(v.frameTimes, Window);
    FpsReading(v.(frameTimes := times), RateOf(times))
  }

  /** The rate `Video::fps` reports for the timestamps it kept. */
  function RateOf(times: seq<nat>): (rate: Rate)
    ensures |times| < FpsMinSamples ==> rate == Finite(0.0)
    ensures |times| >= FpsMinSamples ==>
      && (rate == Infinite <==> times[|times| - 1] <= times[0])
      && (rate.Finite? ==> rate.perSecond * Elapsed(times[0], times[|times| - 1]) as real == (|times| * NanosPerSecond) as real)
    ensures rate.Finite? ==> rate.perSecond >= 0.0
  {
    if |times| < FpsMinSamples then Finite(0.0)
    else
      var elapsed := Elapsed(times[0], times[|times| - 1]);
      if elapsed == 0 then Infinite
      else Finite(PerSecond(|times|, elapsed))
  }

  /** `count` events over `elapsed` nanoseconds, as events per second. */
  function PerSecond(count: nat, elapsed: nat): (rate: real)
    requires elapsed > 0
    ensures rate >= 0.0
    ensures rate * elapsed as real == (count * NanosPerSecond) as real
  {
    var n := (count * NanosPerSecond) as real;
    assert n / elapsed as real * elapsed as real == n;
    n / elapsed as real
  }

  /** A paint followed by `fps()` leaves at most ten timestamps, the most
      recent ones in their original order, ending with the new paint's. */
  lemma PaintThenFps(v: VideoState, f: Frame, terminalWidth: U16, grey: Rgb -> U8, now: nat)
    requires v.lastFrame.None? || Covers(v.lastFrame.value, f)
    ensures var times := Fps(PrintFrameToTerminal(v, f, terminalWidth, grey, now).value.video).video.frameTimes;
      && 0 < |times| <= Window
      && times[|times| - 1] == now
      && times == (v.frameTimes + [now])[|v.frameTimes| + 1 - |times|..]
  {
    KeepRecentAfterPush(v.frameTimes, now, Window);
  }
}

=== FILE: step_size.dfy ===
/** `step_size` (src/utils/step_size.rs): a vertical sampling stride from
    the terminal's width and height in cells. The terminal-size query is
    left out; width and height are parameters. */
module StepSize {
  import opened Numeric
  import opened Wrappers

  /** How the computation panics: `height - 2` overflows a `u16` below 2,
      and the division is by zero at exactly 2. */
  datatype Panic = SubtractOverflow | DivideByZero

  /** The rows the formula reserves. */
  const ReservedRows: nat := 2

  /** `((width / (height - 2)) as u32).saturating_sub(2).max(2)`. */
  function StepSize(width: U16, height: U16): (r: Result<nat, Panic>)
    ensures r.Err? <==> height <= ReservedRows
    ensures r == Err(SubtractOverflow) <==> height < ReservedRows
    ensures r.Ok? ==> r.value >= 2
  {
    if height < ReservedRows then Err(SubtractOverflow)
    else if height == ReservedRows then Err(DivideByZero)
    else Ok(ClampRatio(Ratio(width, height - ReservedRows)))
  }

  /** The columns per usable row, `width / (height - 2)`. */
  function Ratio(width: U16, usable: nat): nat
    requires usable > 0
  {
    width / usable
  }

  /** `ratio.saturating_sub(2).max(2)`. */
  function ClampRatio(ratio: nat): (s: nat)
    ensures s >= 2
    ensures ratio >= 4 ==> s == ratio - 2
    ensures ratio <= 4 ==> s == 2
  {
    Max(SaturatingSub(ratio, 2), 2)
  }

  /** Wide terminals: when width / (height - 2) is at least 4 the stride is
      that ratio minus 2. */
  lemma WideTerminal(width: U16, height: U16)
    requires height > ReservedRows && width / (height - ReservedRows) >= 4
    ensures StepSize(width, height) == Ok(width / (height - ReservedRows) - 2)
  {
  }

  /** Narrow terminals: when width / (height - 2) is at most 4 the
      subtraction floors at 0 and the stride is the minimum, 2. */
  lemma NarrowTerminal(width: U16, height: U16)
    requires height > ReservedRows && width / (height - ReservedRows) <= 4
    ensures StepSize(width, height) == Ok(2)
  {
  }

  /** A wider terminal of the same height never gets a smaller stride. */
  lemma MonotoneInWidth(w1: U16, w2: U16, height: U16)
    requires w1 <= w2 && height > ReservedRows
    ensures StepSize(w1, height).value <= StepSize(w2, height).value
  {
    DivMonotone(w1, w2, height - ReservedRows);
  }

  lemma DivMonotone(a: nat, b: nat, d: nat)
    requires a <= b && d > 0
    ensures a / d <= b / d
  {
    var qa, qb := a / d, b / d;
    assert qa * d <= a <= b < (qb + 1) * d;
    MulCancel(qa, qb + 1, d);
  }

  lemma MulCancel(x: int, y: int, d: nat)
    requires d > 0 && x * d < y * d
    ensures x < y
  {
  }
}

=== FILE: time_format.dfy ===
/** `format_time` (src/utils/format_time.rs): seconds as "HH:MM:SS", each
    field printed with `{:02}`, so the hours field grows past two digits
    from 100 hours on.

    `ParseClock` reads such a text back into its three fields; the round
    trip `ParseClock(FormatTime(t))` recovers the hours, minutes and seconds
    and they add up to `t` again. */
module TimeFormat {
  import opened Wrappers

  predicate IsDigit(c: char)
  {
    '0' <= c <= '9'
  }

  predicate AllDigits(s: string)
  {
    forall i :: 0 <= i < |s| ==> IsDigit(s[i])
  }

  function DigitValue(c: char): (d: nat)
    requires IsDigit(c)
    ensures d < 10
  {
    c as int - '0' as int
  }

  function DigitChar(d: nat): (c: char)
    requires d < 10
    ensures IsDigit(c) && DigitValue(c) == d
  {
    ('0' as int + d) as char
  }

  /** `n` in decimal without leading zeros. */
  function Decimal(n: nat): (s: string)
    ensures |s| >= 1 && AllDigits(s)
    decreases n
  {
    if n < 10 then [DigitChar(n)] else Decimal(n / 10) + [DigitChar(n % 10)]
  }

  /** The `{:02}` format: zeros on the left up to a width of two. */
  function Pad2(s: string): (p: string)
    ensures |p| == if |s| < 2 then 2 else |s|
    ensures AllDigits(s) ==> AllDigits(p)
  {
    if |s| < 2 then seq(2 - |s|, _ => '0') + s else s
  }

  const SecondsPerHour: nat := 3600
  const SecondsPerMinute: nat := 60

  /** "HH:MM:SS" for `t` seconds. Exactly eight characters below 100
      hours, longer from then on. */
  function FormatTime(t: nat): (s: string)
    ensures |s| >= 8
    ensures |s| == 8 <==> t < 100 * SecondsPerHour
  {
    DecimalLength(t / SecondsPerHour);
    DecimalLength(t % SecondsPerHour / SecondsPerMinute);
    DecimalLength(t % SecondsPerMinute);
    Pad2(Decimal(t / SecondsPerHour))
    + ":" + Pad2(Decimal(t % SecondsPerHour / SecondsPerMinute))
    + ":" + Pad2(Decimal(t % SecondsPerMinute))
  }

  lemma {:induction false} DecimalLength(n: nat)
    ensures n < 10 ==> |Decimal(n)| == 1
    ensures 10 <= n < 100 ==> |Decimal(n)| == 2
    ensures n >= 100 ==> |Decimal(n)| >= 3
    decreases n
  {
    if n >= 10 {
      DecimalLength(n / 10);
    }
  }

  /** The value of a string of decimal digits. */
  function DecimalValue(s: string): nat
    requires AllDigits(s)
    decreases |s|
  {
    if s == [] then 0 else DecimalValue(s[..|s| - 1]) * 10 + DigitValue(s[|s| - 1])
  }

  lemma {:induction false} DecimalRoundTrip(n: nat)
    ensures DecimalValue(Decimal(n)) == n
    decreases n
  {
    var s := Decimal(n);
    if n >= 10 {
      DecimalRoundTrip(n / 10);
      assert s[..|s| - 1] == Decimal(n / 10);
    } else {
      assert s[..|s| - 1] == [];
    }
  }

  /** Leading zeros do not change the value. */
  lemma {:induction false} LeadingZeros(k: nat, s: string)
    requires AllDigits(s)
    ensures AllDigits(seq(k, _ => '0') + s)
    ensures DecimalValue(seq(k, _ => '0') + s) == DecimalValue(s)
    decreases |s|
  {
    var z: string := seq(k, _ => '0');
    if s == [] {
      assert z + s == z;
      ZerosValue(k);
    } else {
      var t := z + s;
      assert t[..|t| - 1] == z + s[..|s| - 1];
      LeadingZeros(k, s[..|s| - 1]);
    }
  }

  lemma {:induction false} ZerosValue(k: nat)
    ensures DecimalValue(seq(k, _ => '0')) == 0
    decreases k
  {
    if k > 0 {
      var z: string := seq(k, _ => '0');
      assert z[..k - 1] == seq(k - 1, _ => '0');
      ZerosValue(k - 1);
    }
  }

  lemma PaddedValue(n: nat)
    ensures AllDigits(Pad2(Decimal(n)))
    ensures DecimalValue(Pad2(Decimal(n))) == n
  {
    DecimalRoundTrip(n);
    var s := Decimal(n);
    if |s| < 2 {
      LeadingZeros(2 - |s|, s);
    }
  }

  /** The position of the first ':' in `s`, or `|s|` when there is none. */
  function ColonIndex(s: string): (i: nat)
    ensures i <= |s|
    ensures i < |s| ==> s[i] == ':'
    ensures forall j :: 0 <= j < i ==> s[j] != ':'
    decreases |s|
  {
    if s == [] || s[0] == ':' then 0 else 1 + ColonIndex(s[1..])
  }

  /** The ':'-separated fields of `s`. */
  function Split(s: string): (fields: seq<string>)
    ensures |fields| >= 1
    decreases |s|
  {
    var i := ColonIndex(s);
    if i == |s| then [s] else [s[..i]] + Split(s[i + 1..])
  }

  /** The three fields of a clock text. */
  datatype Clock = Clock(hours: nat, minutes: nat, seconds: nat)

  function TotalSeconds(c: Clock): nat
  {
    c.hours * SecondsPerHour + c.minutes * SecondsPerMinute + c.seconds
  }

  /** Read "H:M:S" back: exactly three non-empty fields of digits. */
  function ParseClock(s: string): Option<Clock>
  {
    var f := Split(s);
    if |f| == 3 && IsNumber(f[0]) && IsNumber(f[1]) && IsNumber(f[2]) then
      Some(Clock(DecimalValue(f[0]), DecimalValue(f[1]), DecimalValue(f[2])))
    else None
  }

  predicate IsNumber(s: string)
  {
    |s| > 0 && AllDigits(s)
  }

  lemma SplitDigits(a: string)
    requires AllDigits(a)
    ensures Split(a) == [a]
  {
  }

  lemma SplitAtColon(a: string, rest: string)
    requires AllDigits(a)
    ensures Split(a + ":" + rest) == [a] + Split(rest)
  {
    var s := a + ":" + rest;
    assert s[|a|] == ':';
    assert ColonIndex(s) == |a|;
    assert s[..|a|] == a && s[|a| + 1..] == rest;
  }

  /** Three digit fields joined by ':' split back into the same fields. */
  lemma SplitThree(h: string, m: string, s: string)
    requires AllDigits(h) && AllDigits(m) && AllDigits(s)
    ensures Split(h + ":" + m + ":" + s) == [h, m, s]
  {
    var tail := m + ":" + s;
    assert h + ":" + m + ":" + s == h + ":" + tail;
    SplitAtColon(h, tail);
    SplitAtColon(m, s);
    SplitDigits(s);
    assert Split(tail) == [m, s];
  }

  /** The three fields `FormatTime` prints. */
  lemma FormatFields(t: nat) returns (h: string, m: string, s: string)
    ensures FormatTime(t) == h + ":" + m + ":" + s
    ensures AllDigits(h) && AllDigits(m) && AllDigits(s)
    ensures |h| >= 2 && |m| == 2 && |s| == 2
    ensures DecimalValue(h) == t / SecondsPerHour
    ensures DecimalValue(m) == t % SecondsPerHour / SecondsPerMinute
    ensures DecimalValue(s) == t % SecondsPerMinute
  {
    h := Pad2(Decimal(t / SecondsPerHour));
    m := Pad2(Decimal(t % SecondsPerHour / SecondsPerMinute));
    s := Pad2(Decimal(t % SecondsPerMinute));
    DecimalLength(t % SecondsPerHour / SecondsPerMinute);
    DecimalLength(t % SecondsPerMinute);
    PaddedValue(t / SecondsPerHour);
    PaddedValue(t % SecondsPerHour / SecondsPerMinute);
    PaddedValue(t % SecondsPerMinute);
  }

  /** The formatted text is the three zero-padded fields and two ':'
      separators: every character is a digit or ':', the minute and second
      fields have exactly two digits and the hour field at least two. */
  lemma FormatShape(t: nat)
    ensures ClockChars(FormatTime(t))
    ensures var f := Split(FormatTime(t));
      && |f| == 3
      && AllDigits(f[0]) && AllDigits(f[1]) && AllDigits(f[2])
      && |f[0]| >= 2 && |f[1]| == 2 && |f[2]| == 2
  {
    var h, m, s := FormatFields(t);
    var text := FormatTime(t);
    assert text == h + ":" + m + ":" + s;
    SplitThree(h, m, s);
    JoinedClockChars(h, m, s);
  }

  /** Every character is a digit or ':'. */
  predicate ClockChars(s: string)
  {
    forall i :: 0 <= i < |s| ==> IsDigit(s[i]) || s[i] == ':'
  }

  lemma JoinedClockChars(h: string, m: string, s: string)
    requires AllDigits(h) && AllDigits(m) && AllDigits(s)
    ensures ClockChars(h + ":" + m + ":" + s)
  {
    ConcatClockChars(h, ":");
    ConcatClockChars(h + ":", m);
    ConcatClockChars(h + ":" + m, ":");
    ConcatClockChars(h + ":" + m + ":", s);
  }

  lemma ConcatClockChars(a: string, b: string)
    requires ClockChars(a) && ClockChars(b)
    ensures ClockChars(a + b)
  {
    forall i | 0 <= i < |a + b| ensures IsDigit((a + b)[i]) || (a + b)[i] == ':' {
      if i < |a| {
        assert (a + b)[i] == a[i];
      } else {
        assert (a + b)[i] == b[i - |a|];
      }
    }
  }

  /** Round trip: reading the formatted text back gives hours t / 3600,
      minutes (t % 3600) / 60 and seconds t % 60, both of the latter below
      60, and together they are `t` seconds again. */
  lemma FormatTimeRoundTrip(t: nat)
    ensures ParseClock(FormatTime(t)).Some?
    ensures var c := ParseClock(FormatTime(t)).value;
      && c == Clock(t / SecondsPerHour, t % SecondsPerHour / SecondsPerMinute, t % SecondsPerMinute)
      && c.minutes < 60 && c.seconds < 60
      && TotalSeconds(c) == t
  {
    var h, m, s := FormatFields(t);
    SplitThree(h, m, s);
    ClockArithmetic(t);
  }

  lemma ClockArithmetic(t: nat)
    ensures t % SecondsPerHour / SecondsPerMinute < 60 && t % SecondsPerMinute < 60
    ensures TotalSeconds(Clock(t / SecondsPerHour, t % SecondsPerHour / SecondsPerMinute, t % SecondsPerMinute)) == t
  {
    var r := t % 3600;
    assert t == t / 3600 * 3600 + r;
    assert r == r / 60 * 60 + r % 60;
    assert r % 60 == t % 60;
  }
}

=== FILE: video_url.dfy ===
/** `VideoUrl::from_str` (src/video.rs:34-53): the three-way classification
    of the location the player is given. */
module VideoUrl {
  import opened Wrappers

  /** Where the video comes from; each variant keeps the location as given. */
  datatype VideoUrl = YoutubeUrl(url: string) | File(path: string) | DirectUrl(url: string)

  /** The location a classified value carries. */
  function Location(v: VideoUrl): string
  {
    match v
    case YoutubeUrl(u) => u
    case File(p) => p
    case DirectUrl(u) => u
  }

  /** `s.starts_with(prefix)`. */
  predicate StartsWith(s: string, prefix: string)
  {
    |prefix| <= |s| && s[..|prefix|] == prefix
  }

  /** `s.contains(needle)`, scanning left to right. */
  predicate Contains(s: string, needle: string)
    decreases |s|
  {
    StartsWith(s, needle) || (|s| > 0 && Contains(s[1..], needle))
  }

  /** `needle` occurs at some position of `s`. */
  ghost predicate OccursAt(s: string, needle: string, i: nat)
  {
    i + |needle| <= |s| && s[i..i + |needle|] == needle
  }

  /** The scan finds `needle` exactly when it occurs somewhere in `s`. */
  lemma ContainsIffOccurs(s: string, needle: string)
    ensures Contains(s, needle) <==> exists i: nat :: OccursAt(s, needle, i)
  {
    forall i: nat | OccursAt(s, needle, i) ensures Contains(s, needle) {
      OccursContained(s, needle, i);
    }
    if Contains(s, needle) {
      var i := ContainedOccurs(s, needle);
    }
  }

  lemma {:induction false} OccursContained(s: string, needle: string, i: nat)
    requires OccursAt(s, needle, i)
    ensures Contains(s, needle)
    decreases i
  {
    if i > 0 {
      assert s[1..][i - 1..i - 1 + |needle|] == s[i..i + |needle|];
      OccursContained(s[1..], needle, i - 1);
    }
  }

  lemma {:induction false} ContainedOccurs(s: string, needle: string) returns (i: nat)
    requires Contains(s, needle)
    ensures OccursAt(s, needle, i)
    decreases |s|
  {
    if StartsWith(s, needle) {
      i := 0;
    } else {
      var k := ContainedOccurs(s[1..], needle);
      assert s[1..][k..k + |needle|] == s[k + 1..k + 1 + |needle|];
      i := k + 1;
    }
  }

  predicate IsYoutubeHost(s: string)
  {
    Contains(s, "youtube.com") || Contains(s, "youtu.be")
  }

  /** Classify `s`. Parsing never fails and always keeps `s` unchanged:
      an "http" location naming YouTube is a YouTube URL, any other "http"
      location a direct URL, and everything else a file path. */
  function FromStr(s: string): (r: Result<VideoUrl, string>)
    ensures r.Ok?
    ensures Location(r.value) == s
    ensures r.value.YoutubeUrl? <==> StartsWith(s, "http") && IsYoutubeHost(s)
    ensures r.value.DirectUrl? <==> StartsWith(s, "http") && !IsYoutubeHost(s)
    ensures r.value.File? <==> !StartsWith(s, "http")
  {
    if StartsWith(s, "http") then
      if Contains(s, "youtube.com") || Contains(s, "youtu.be") then Ok(YoutubeUrl(s))
      else Ok(DirectUrl(s))
    else Ok(File(s))
  }

  /** The test is on the prefix "http" alone: an "https" location counts
      as a URL, and a path that merely mentions "youtu.be" stays a file. */
  lemma ClassificationExamples()
    ensures FromStr("https://youtu.be/x") == Ok(YoutubeUrl("https://youtu.be/x"))
    ensures FromStr("clips/youtu.be.mp4") == Ok(File("clips/youtu.be.mp4"))
  {
    var u := "https://youtu.be/x";
    assert u[..4] == "http";
    assert u[8..16] == "youtu.be";
    assert OccursAt(u, "youtu.be", 8);
    OccursContained(u, "youtu.be", 8);
    var p := "clips/youtu.be.mp4";
    assert p[..4][0] == 'c';
  }
}

=== FILE: wrappers.dfy ===
/** Optional values and results with an error, for the places where the
    player either has no value (no previous frame) or stops with a panic. */
module Wrappers {

  datatype Option<+T> = None | Some(value: T)

  datatype Result<+T, +E> = Ok(value: T) | Err(error: E)
}
